=== FILE: README.md ===
# Skin-condition detection resolver, modelled in Dafny

`project_ml.py` is a Streamlit page that runs a YOLOv5 detector on uploaded
photos of skin and reports, for each photo, the skin conditions found. This
project models the part of it that decides what the page is told:

- `class_names`, the 19-entry table that names the detector's classes;
- `get_latest_exp_folder`, which picks the newest `yolov5/runs/detect/exp*`
  run directory by modification time;
- `read_detection_labels`, which reads the class index of every detection from
  a YOLO label file;
- `run_detection_logic`, which stages the upload in a temporary `.jpg`, runs
  the detector, locates the annotated image and the label file in the newest
  run, translates the indices into class names, builds the
  `{filename, labels, image_path, error}` record and removes the temporary file.

The filesystem is a value (`Files.FileSystem`): a map from path to file or
directory, each with a modification time, plus the order in which a directory
scan lists paths, which is the order `glob` returns matches in. Everything is a
pure function of that value. The operations are these:

- The detector is an input (`Detection.DetectorRun`). It is a list of entries
  it writes, and it either returns normally or raises with a message.
- The upload is an input (`Detection.Upload`). It carries its name and what
  OpenCV makes of its bytes (`Detection.Decoding`): `cv2.imdecode` raises on an
  empty upload, returns no image for bytes it cannot decode, or gives an image
  that `cv2.imwrite` encodes as known bytes.
- The temporary file's name and the clock are parameters.
- A call ends in one of four ways (`Detection.Outcome`):
  - it returns a record;
  - it fails loading the upload on line 52, before any file exists;
  - it fails while staging the upload, before the `try`;
  - it fails in the `finally` block, when `os.remove` meets a directory.

The Python behaviour the code relies on is modelled explicitly:

- `str.split()` on Unicode whitespace;
- `int()` with a sign and digit-separating underscores;
- text-mode reading with universal newlines, then `readlines`;
- `os.path.basename`, `join` and `splitext`;
- `glob` listing matches in directory-scan order;
- `sorted` as a stable sort;
- list indexing with negative indices;
- `str()` of the exceptions the handler catches, including the 200-character
  cut `int()` applies to the rejected literal's `repr()`.

Behaviours of the code worth knowing:

- A photo OpenCV cannot decode is not reported as an error record. The
  `cv2.imwrite` call on line 55 raises before the `try` on line 60, so the
  exception escapes and the empty temporary file stays behind
  (`StagingFailed`). An empty upload fails even earlier, in `cv2.imdecode` on
  line 52, and leaves the filesystem as it was (`LoadFailed`).
- Negative class indices are not filtered out. Line 90 only checks
  `c < len(class_names)`, so -19..-1 name classes from the end of the table.
  An index below -19 raises `IndexError`, which the handler on lines 103-105
  turns into the error `list index out of range`, with no labels and no image.
- The detector is called with `exist_ok=True`, so it may write into an
  existing `exp` directory rather than a fresh one. The run picked is the
  newest by time, whichever one that is; among runs with the same time it is
  the one the directory scan lists last.
- When the exact image is missing, the fallback on lines 84-85 takes the first
  `<stem>.*` entry in directory-scan order.
- An exception raised while reading or translating labels replaces any
  "image not found" error already set on line 87.
- A label line whose first field is not an integer raises `ValueError`; its
  message shows at most the first 200 characters of that field's `repr()`.
- In this model, which has no symbolic links and no deletions by other
  processes, the check on lines 97-98 can never fire. Whatever the image
  search on lines 83-85 returns exists at the time of the check
  (`Detection.FindOutputImage`), so `image_path` is either an existing path
  or None.

## Model

| member | source | states |
|---|---|---|
| PyBase.PyIndex | project_ml.py:90 | `xs[i]` succeeds exactly when `-len <= i < len`; a non-negative index gives that element, anything out of range is `IndexError` |
| PyBase.PyIndexNegative | project_ml.py:90 | a negative index in range names the same element as the index plus the length |
| PyBase.Repr | project_ml.py:48 | `repr()` of a text is at least two characters longer, opens and closes with the same quote, and uses double quotes exactly when the text holds a single quote and no double quote |
| PyBase.ReprPlain | project_ml.py:48 | text without quotes, backslashes, tabs or line breaks is shown between single quotes, unchanged |
| PyBase.Str | project_ml.py:105 | `str(e)` of a detector exception is its message; the other exceptions give non-empty text; a `ValueError` message is the fixed prefix followed by at most 200 characters, the whole `repr()` of the literal when that fits |
| PyBase.LongLiteralCut | project_ml.py:105 | a literal of 200 characters or more shows only the first 200 characters of its `repr()` after the prefix |
| PyText.Split | project_ml.py:48 | `line.split()` yields only non-empty whitespace-free fields, and yields none exactly when the line is all whitespace |
| PyText.SplitLeadingSpace | project_ml.py:48 | whitespace in front of a line adds no field: `(ws + s).split() == s.split()` |
| PyText.SplitFirst | project_ml.py:48 | a field followed by nothing or by whitespace is the first element of the split |
| PyText.ParseInt | project_ml.py:48 | `int(tok)` succeeds exactly on an integer literal (digits, an optional leading sign, underscores only between two digits, a digit last) and is negative only after `-`; anything else raises `ValueError` carrying the token |
| PyText.IntLiteralBody | project_ml.py:48 | the character-by-character literal rule agrees with "optional sign, then a digit group" |
| PyText.ParseIntGroup | project_ml.py:48 | an unsigned digit group is read as the number its digits spell |
| PyText.ParseIntPlus | project_ml.py:48 | a leading `+` does not change the value: `int("+" + d) == int(d)` |
| PyText.ParseIntMinus | project_ml.py:48 | a leading `-` negates the value: `int("-" + d) == -int(d)` |
| PyText.ParseIntUnderscore | project_ml.py:48 | an underscore between two digit groups does not change the value: `int(a + "_" + b) == int(a + b)` |
| PyText.ParseIntRejectsExamples | project_ml.py:48 | `int("3.0")`, `int("1__0")` and `int("7_")` raise `ValueError` |
| PyText.ParseIntRoundTrip | project_ml.py:48 | `int(str(n)) == n` for every integer |
| PyText.TranslateNewlines | project_ml.py:47 | text-mode reading leaves no carriage return, never lengthens the text, and gives empty text only for an empty file |
| PyText.TranslateNewlinesNoCr | project_ml.py:47 | text without carriage returns is read unchanged |
| PyText.TranslateNewlinesEnding | project_ml.py:47 | `\n`, `\r\n` and a lone `\r` not followed by `\n` each read as one `\n` |
| PyText.TranslateLineEndings | project_ml.py:47 | lines written with `\r\n` or `\r` endings read as the same lines ending in `\n` |
| PyText.ReadLines | project_ml.py:48 | `readlines()` splits the text into lines whose concatenation is the text, each ending in its newline except possibly the last |
| PyText.ReadLinesOfConcat | project_ml.py:48 | lines joined together are read back as the same lines |
| PyPath.Basename | project_ml.py:78 | the basename is a slash-free suffix of the path, preceded by `/` unless it is the whole path |
| PyPath.Join | project_ml.py:79-80 | joining an absolute name gives the name; otherwise the result starts with the directory and ends with the name |
| PyPath.BasenameOfJoin | project_ml.py:79-80 | the basename of a directory joined with a plain name is that name |
| PyPath.SplitExt | project_ml.py:80 | stem and extension concatenate to the name; the extension is empty or one dot followed by no dot or slash |
| PyPath.StemOfDottedName | project_ml.py:54 | a dot-free stem plus one extension, like a temporary `tmpXXXX.jpg`, splits back into the two |
| Files.Glob | project_ml.py:84 | `glob("dir/prefix*")` returns exactly the listed existing paths directly under `dir` whose name starts with `prefix`, in directory-scan order, and without repeats for a valid listing |
| Files.GlobFollowsListing | project_ml.py:84 | two matches come out of `glob` in the order the directory scan lists them |
| Files.FirstMatchPrecedes | project_ml.py:84-85 | `possible_images[0]` comes before every other match in the directory scan |
| Files.PutAll | project_ml.py:61-73 | after a sequence of writes every written path exists holding its last write, and every path not written is unchanged |
| Files.Remove | project_ml.py:109 | after `os.remove(p)` the path is gone and every other path is unchanged |
| Runs.RunCandidates | project_ml.py:41 | one run per `exp*` match, in `glob` order, each carrying that path's modification time |
| Runs.SortByMtime | project_ml.py:41 | `sorted(..., key=os.path.getmtime)` keeps the length and orders by modification time |
| Runs.SortPermutes | project_ml.py:41 | the sort is a permutation of its input |
| Runs.SortStable | project_ml.py:41 | runs sharing one time keep their glob order after the sort |
| Runs.LastOfSortIsLatest | project_ml.py:41-42 | the last element after the sort has the greatest time and is the last run in glob order with that time |
| Runs.GetLatestExpFolder | project_ml.py:40-42 | None exactly when there are no runs; otherwise the path of the run with the greatest time, the last one in glob order among ties |
| Runs.LatestDetermines | project_ml.py:40-42 | whichever position holds the greatest time, last among ties, its path is the one returned |
| Runs.LatestRun | project_ml.py:40-42 | None exactly when no `exp*` entry exists; otherwise an existing `exp*` entry whose time is not below any other's; for a valid listing, every match the scan lists after it is strictly older |
| Runs.LaterMatchIsOlder | project_ml.py:40-42 | for a valid listing, a match the directory scan lists after the chosen run is strictly older than it |
| Runs.NewestRunChosen | project_ml.py:40-42 | a run strictly newer than every other match is the one chosen |
| ClassTable.LookupName | project_ml.py:90 | `class_names[c]`, when it succeeds, is one of the table's names |
| ClassTable.TranslateLabels | project_ml.py:90 | the translation raises `IndexError` exactly when some index is below -19; otherwise it gives at most one table name per index |
| ClassTable.TranslateOne | project_ml.py:90 | one index is named from the front, named from the back, dropped, or an `IndexError`, by its range |
| ClassTable.TranslateAppend | project_ml.py:90 | translating a concatenation concatenates the translations, keeping order and repeats; an error in either part wins |
| ClassTable.TranslateInRange | project_ml.py:90 | indices 0..18 translate one for one into `class_names[c]`, in order |
| ClassTable.TranslateIgnoresLargeIndices | project_ml.py:90 | removing the indices of 19 and above does not change the translation |
| ClassTable.TranslateExample | project_ml.py:15-34 | `[2, 2, 13]` translates to two `Hailey_Hailey_Disease` and one `acne`, in that order |
| LabelFile.ParseLabelLine | project_ml.py:48 | a line raises `IndexError` exactly when it is all whitespace; any other failure is a `ValueError` on its first field; a success is `int()` of that field |
| LabelFile.FirstFieldAfterSpace | project_ml.py:48 | the first field of whitespace, a token, then nothing or whitespace-led text, is that token |
| LabelFile.IndentedLineReadsBack | project_ml.py:48 | whitespace, then `str(c)`, then nothing or whitespace-led fields, parses as `c` |
| LabelFile.IndentedLineExample | project_ml.py:48 | the line `" 3 0.5"` parses as 3 |
| LabelFile.ParseEach | project_ml.py:48 | the comprehension succeeds exactly when every line parses, giving one index per line in line order |
| LabelFile.ParseEachFailure | project_ml.py:48 | when the comprehension raises, it raises the error of the first line that fails |
| LabelFile.ReadDetectionLabels | project_ml.py:44-49 | a missing file gives no labels, a directory raises, a file is parsed line by line after newline translation |
| LabelFile.ReadErrorKinds | project_ml.py:46-48 | reading labels raises only `IndexError`, `ValueError` or the directory error for that path |
| LabelFile.ReadBackWrittenLabels | project_ml.py:44-49 | a label file of `<class> <fields>` lines is read back as exactly those classes, in order |
| LabelFile.ReadBackLabelsAnyEnding | project_ml.py:44-49 | the same label file written with `\r\n` or `\r` line endings is read back as the same classes |
| Detection.OutputImagePath | project_ml.py:78-79 | the expected image path starts with the run directory and ends with the temporary file's basename |
| Detection.LabelPath | project_ml.py:78-80 | the label path starts with the run directory and ends with the temporary file's stem and `.txt` |
| Detection.LabelPathShape | project_ml.py:78-80 | the label path is `<run>/labels/<stem>.txt`, and its basename is `<stem>.txt` |
| Detection.OutputImagePathShape | project_ml.py:78-79 | the expected image path is `<run>/<basename of the temporary file>` |
| Detection.FindOutputImage | project_ml.py:79-85 | the exact image if it exists, else the first `<stem>.*` entry of the run in scan order if there is one, else nothing; whatever is found exists |
| Detection.ResolveRun | project_ml.py:75-101 | the record keeps the upload's name; its image exists; with no run it reports the missing-run error with no labels and no image |
| Detection.ResolveIn | project_ml.py:78-101 | for a run directory, the record keeps the upload's name and any image it names exists |
| Detection.Assemble | project_ml.py:86-101 | given the search's image and the labels read, the record keeps the upload's name and any image it names exists |
| Detection.AssembleCases | project_ml.py:86-105 | a read or translation error gives no labels, no image and that error's text; otherwise the names and the image found, with an error exactly when no image was found |
| Detection.ResolveRunUsesLatest | project_ml.py:75-77 | the record is built from the run `get_latest_exp_folder` picks |
| Detection.ResolveInCases | project_ml.py:78-105 | a read or translation error gives no labels, no image and that error's text; otherwise the names and the found image, with an error exactly when no image was found |
| Detection.TooNegativeIndexIsError | project_ml.py:89-105 | an index below -19 in the label file gives `list index out of range` with no labels and no image |
| Detection.NoErrorHasImage | project_ml.py:75-101 | a record without an error has a run and an image |
| Detection.ImageAbsentIsError | project_ml.py:83-87 | with neither the exact image nor a `<stem>.*` match, the record has no image and a non-empty error |
| Detection.NoLabelFileIsNoDetections | project_ml.py:89-95 | an existing image without a label file gives no labels and no error |
| Detection.ResolveWrittenRun | project_ml.py:78-95 | a run with the image and a label file of in-range classes gives those classes' names in file order, the image and no error |
| Detection.Cleanup | project_ml.py:107-109 | the `finally` block returns the record with the temporary file gone, or raises when a directory stands at that path |
| Detection.AfterDetector | project_ml.py:54-73 | every path the detector wrote holds its last write; the temporary file still holds the encoded upload unless the detector wrote over it; every other path is as before |
| Detection.RunDetectionLogic | project_ml.py:51-111 | an empty upload raises on line 52 and changes nothing; an undecodable one fails staging, leaving the temporary file; a returned record keeps the upload's name and the temporary file is gone, every other path left as the detector left it; a failing cleanup leaves that filesystem untouched; a raising detector's message becomes the error |
| Detection.CompletedReturns | project_ml.py:60-111 | a detector that returns and leaves the temporary file alone yields the resolved record and the filesystem without the temporary file |
| Detection.NoRunIsError | project_ml.py:75-101 | with no run after the detector, the returned record has the missing-run error, no labels and no image |
| Detection.ImagePathExisted | project_ml.py:94 | a returned image path existed after the detector ran |
| Detection.DetectionEndToEnd | project_ml.py:51-111 | a detector that writes the newest run with the image and label lines yields the class names in file order, that image, no error, and no temporary file |

## Left out

- The Streamlit page (page setup, upload widget, buttons, rendering, `st.error` on line 104): user-interface code with no bearing on the record. Its display code also uses `Counter` without importing it.
- OpenCV decoding and encoding (lines 36-38 and 55): a foreign codec. The upload carries what decoding gives: an exception, no image, or the bytes `cv2.imwrite` would write. Other `imwrite` failures are not modelled.
- The YOLOv5 `run` call and its weights, thresholds and image size (lines 61-73): a foreign black box with floating-point behaviour. Only the entries it writes and whether it raises are modelled.
- Files.Glob: treats the directory and prefix as literal text. Glob metacharacters in them, hidden-file rules and symbolic links are not modelled; every stem the code builds is a temporary file's name, which holds none of them.
- Files.FileSystem: paths are compared as strings, without normalising `.`, `..` or repeated slashes. The paths form a flat map, not a tree: a path can exist without its parent directories, and removing a directory's entry leaves the paths under it in place.
- Files.Put: creating or replacing a path leaves its parent directory's modification time alone, whereas a real filesystem updates it when an entry is created. A detector that adds files to an existing `exp` directory (`exist_ok=True`, line 72) makes that run newer only if its writes include the run directory itself. A newly created path is listed after every existing one. A real directory scan orders entries by the filesystem's own layout, which the model does not know; every ordering claim is relative to the listing the filesystem value carries.
- Symbolic links and files deleted by other processes are not modelled, so an existence check here never disagrees with the lookup that follows it.
- PyText.ParseInt: accepts ASCII digits only, and takes the token without surrounding whitespace (the caller passes a `split()` field). It leaves out the non-ASCII decimal digits Python's `int()` also accepts and the limit on the number of digits it converts.
- PyBase.Repr: escapes only backslash, the quote, tab, newline and carriage return. Other non-printable characters appear in the error text unescaped.
- LabelFile.ReadDetectionLabels: the file's bytes are taken as already-decoded text. Decoding errors from the platform encoding are not modelled.
- Detection.RunDetectionLogic: the temporary file's name and the clock are parameters, not drawn from `tempfile` or the system clock. Another request changing the run directories in between is not modelled, since the model is sequential.
- The `.title()` formatting of class names for display (line 155): presentation only.

=== FILE: class_table.dfy ===
/** The detector's class table and the translation of parsed class indices
    into class names: `[class_names[c] for c in labels if c < len(class_names)]`.
    Only indices at or above the table's length are skipped; a negative index
    is Python list indexing from the end, and below minus the length it raises. */
module ClassTable {
  import opened PyBase

  /** `class_names`: position i names class i. */
  const ClassNames: seq<string> := [
    "Darier_s_Disease",
    "Epidermolysis_Bullosa_Pruriginosa",
    "Hailey_Hailey_Disease",
    "Hemangiome",
    "Impetigo",
    "Leishmanios",
    "Lupus_Erythematosus_Chronicus_Discoides",
    "Melanoma",
    "Molluscum_Contagiosum",
    "Porokeratosis",
    "Psoriasis",
    "Tinea_Corporis",
    "Tungiasis",
    "acne",
    "basal_cell_carcinoma",
    "eczema",
    "lichen",
    "nevus",
    "normal_skin"]

  /** `class_names[c]`, with Python's negative indexing. */
  function LookupName(c: int): (r: Result<string>)
    ensures r.Success? ==> r.value in ClassNames
  {
    PyIndex(ClassNames, c)
  }

  /** The translation of line 90, `[class_names[c] for c in labels if c <
      len(class_names)]`. It raises `IndexError` exactly when some index lies
      below minus the table length; otherwise it yields at most one name per
      index, each from the table. */
  function TranslateLabels(labels: seq<int>): (r: Result<seq<string>>)
    ensures r.Failure? <==> exists i :: 0 <= i < |labels| && labels[i] < -|ClassNames|
    ensures r.Failure? ==> r.error == IndexError
    ensures r.Success? ==> |r.value| <= |labels|
    ensures r.Success? ==> forall j :: 0 <= j < |r.value| ==> r.value[j] in ClassNames
  {
    if |labels| == 0 then Success([])
    else
      var c := labels[0];
      var rest := TranslateLabels(labels[1..]);
      assert forall i :: 1 <= i < |labels| ==> labels[i] == labels[1..][i - 1];
      if c >= |ClassNames| then rest
      else
        match LookupName(c)
        case Failure(e) => Failure(e)
        case Success(name) =>
          if rest.Failure? then rest else Success([name] + rest.value)
  }

  /** One index on its own: named from the front when in range, named from the
      back when negative down to minus the length, dropped when too large, an
      `IndexError` when too small. */
  lemma TranslateOne(c: int)
    ensures 0 <= c < |ClassNames| ==> TranslateLabels([c]) == Success([ClassNames[c]])
    ensures -|ClassNames| <= c < 0 ==> TranslateLabels([c]) == Success([ClassNames[|ClassNames| + c]])
    ensures c >= |ClassNames| ==> TranslateLabels([c]) == Success([])
    ensures c < -|ClassNames| ==> TranslateLabels([c]) == Failure(IndexError)
  {
    assert [c][1..] == [];
    assert TranslateLabels([]) == Success([]);
    if -|ClassNames| <= c < |ClassNames| {
      var n := LookupName(c).value;
      assert [n] + [] == [n];
    }
  }

  /** Translating a concatenation is translating each part and concatenating:
      order and repetitions are kept, and an `IndexError` anywhere wins. */
  lemma {:induction false} TranslateAppend(a: seq<int>, b: seq<int>)
    ensures TranslateLabels(a + b) ==
      if TranslateLabels(a).Failure? then TranslateLabels(a)
      else if TranslateLabels(b).Failure? then TranslateLabels(b)
      else Success(TranslateLabels(a).value + TranslateLabels(b).value)
  {
    if |a| == 0 {
      assert a + b == b;
      assert TranslateLabels(b).Success? ==> [] + TranslateLabels(b).value == TranslateLabels(b).value;
    } else {
      var c := a[0];
      assert (a + b)[0] == c;
      assert (a + b)[1..] == a[1..] + b;
      TranslateAppend(a[1..], b);
      var ra := TranslateLabels(a[1..]);
      var rb := TranslateLabels(b);
      if c < |ClassNames| && LookupName(c).Success? && ra.Success? && rb.Success? {
        var n := LookupName(c).value;
        assert [n] + (ra.value + rb.value) == ([n] + ra.value) + rb.value;
      }
    }
  }

  /** Indices all inside the table translate one for one, in order. */
  lemma {:induction false} TranslateInRange(classes: seq<int>)
    requires forall i :: 0 <= i < |classes| ==> 0 <= classes[i] < |ClassNames|
    ensures TranslateLabels(classes).Success?
    ensures |TranslateLabels(classes).value| == |classes|
    ensures forall i :: 0 <= i < |classes| ==> TranslateLabels(classes).value[i] == ClassNames[classes[i]]
  {
    if |classes| > 0 {
      var tail := classes[1..];
      assert forall i :: 1 <= i < |classes| ==> classes[i] == tail[i - 1];
      TranslateInRange(tail);
      var rest := TranslateLabels(tail).value;
      assert LookupName(classes[0]) == Success(ClassNames[classes[0]]);
      var v := TranslateLabels(classes).value;
      assert v == [ClassNames[classes[0]]] + rest;
      assert forall i :: 1 <= i < |classes| ==> v[i] == rest[i - 1];
    }
  }

  /** Indices beyond the table are skipped silently: removing them changes nothing. */
  lemma {:induction false} TranslateIgnoresLargeIndices(labels: seq<int>)
    ensures TranslateLabels(labels) == TranslateLabels(Filter(labels, BelowTableLength))
  {
    if |labels| > 0 {
      var c := labels[0];
      var tail := labels[1..];
      var kept := Filter(tail, BelowTableLength);
      TranslateIgnoresLargeIndices(tail);
      FilterCons(c, tail, BelowTableLength);
      assert labels == [c] + tail;
      if BelowTableLength(c) {
        assert Filter(labels, BelowTableLength) == [c] + kept;
        TranslateAppend([c], kept);
        TranslateAppend([c], tail);
      } else {
        assert Filter(labels, BelowTableLength) == kept;
        assert TranslateLabels(labels) == TranslateLabels(tail);
      }
    }
  }

  /** The comprehension's filter, `c < len(class_names)`. */
  predicate BelowTableLength(c: int)
  {
    c < |ClassNames|
  }

  /** Two detections of class 2 and one of class 13 read as two Hailey-Hailey
      findings and one acne finding, in that order. */
  lemma TranslateExample()
    ensures TranslateLabels([2, 2, 13]) == Success(["Hailey_Hailey_Disease", "Hailey_Hailey_Disease", "acne"])
  {
    assert ClassNames[2] == "Hailey_Hailey_Disease" && ClassNames[13] == "acne";
    TranslateOne(2);
    TranslateOne(13);
    var h := "Hailey_Hailey_Disease";
    assert TranslateLabels([2]) == Success([h]);
    assert TranslateLabels([13]) == Success(["acne"]);
    TranslateAppend([2], [2]);
    assert [2] + [2] == [2, 2];
    assert [h] + [h] == [h, h];
    assert TranslateLabels([2, 2]) == Success(["Hailey_Hailey_Disease", "Hailey_Hailey_Disease"]);
    TranslateAppend([2, 2], [13]);
    assert [2, 2] + [13] == [2, 2, 13];
    assert [h, h] + ["acne"] == [h, h, "acne"];
  }
}

=== FILE: detection.dfy ===
/** `run_detection_logic` in project_ml.py, with the line numbers below
    referring to that file: stage the upload in a temporary file, run the
    detector on it, find the newest run directory, locate the annotated image
    and the label file in it, translate the labels into class names, and
    remove the temporary file. The filesystem is a value passed in and
    returned; the detector is an input saying what it wrote and whether it
    raised. */
module Detection {
  import opened PyBase
  import opened PyText
  import opened PyPath
  import opened Files
  import opened Runs
  import opened LabelFile
  import opened ClassTable

  /** What OpenCV makes of an upload's bytes. `cv2.imdecode` raises on an
      empty buffer, returns no image for bytes it cannot decode, and otherwise
      gives an image that `cv2.imwrite` encodes as `bytes`. */
  datatype Decoding =
    | DecodeRaises
    | NoImage
    | Jpeg(bytes: string)

  /** An uploaded file: its name and what decoding it gives. */
  datatype Upload = Upload(name: string, decoding: Decoding)

  /** What the detector call did: the entries it wrote, in order, and whether
      it then raised an exception with a message. */
  datatype DetectorRun =
    | Completed(writes: seq<(string, Node)>)
    | Threw(message: string, writes: seq<(string, Node)>)

  /** The record the resolver returns to the page. */
  datatype DetectionResult = DetectionResult(
    filename: string,
    labels: seq<string>,
    imagePath: Option<string>,
    error: Option<string>)

  /** How a call ends: with a result, or with an exception that escapes it. */
  datatype Outcome =
    | Returned(result: DetectionResult, fs: FileSystem)
    | LoadFailed(fs: FileSystem)
    | StagingFailed(fs: FileSystem)
    | CleanupFailed(error: PyError, fs: FileSystem)

  const NoRunMessage: string := "\U{274C} Folder hasil deteksi (exp*) tidak ditemukan di 'yolov5/runs/detect'."

  function ImageNotFoundIn(dir: string): string
  {
    "Gambar hasil deteksi tidak ditemukan di " + dir
  }

  function ImageMissing(path: string): string
  {
    "Gambar hasil deteksi (" + path + ") tidak ditemukan."
  }

  /** Python truthiness of an optional path: present and not empty. */
  predicate Truthy(p: Option<string>)
  {
    p.Some? && |p.value| > 0
  }

  /** Where the detector puts the annotated copy of `tmp` inside run `exp`:
      a path under the run directory ending in the temporary file's name. */
  function OutputImagePath(exp: string, tmp: string): (r: string)
    ensures |r| >= |exp| + |Basename(tmp)| && r[..|exp|] == exp
    ensures r[|r| - |Basename(tmp)|..] == Basename(tmp)
  {
    var name := Basename(tmp);
    assert |name| == 0 || name[0] != '/';
    Join(exp, name)
  }

  /** Where the detector puts the labels for `tmp` inside run `exp`: a path
      under the run directory ending in the temporary file's stem and `.txt`. */
  function LabelPath(exp: string, tmp: string): (r: string)
    ensures var name := Stem(Basename(tmp)) + ".txt";
      |r| >= |exp| + |name| && r[..|exp|] == exp && r[|r| - |name|..] == name
  {
    var name := Stem(Basename(tmp)) + ".txt";
    LabelNamePlain(tmp);
    JoinUnder(exp, "labels", name);
    Join(Join(exp, "labels"), name)
  }

  /** A relative name joined twice onto `dir` stays under `dir`. */
  lemma JoinUnder(dir: string, sub: string, name: string)
    requires |sub| > 0 && sub[0] != '/' && |name| > 0 && name[0] != '/'
    ensures var r := Join(Join(dir, sub), name);
      |r| >= |dir| + |name| && r[..|dir|] == dir && r[|r| - |name|..] == name
  {
    var d := Join(dir, sub);
    var r := Join(d, name);
    assert r[..|dir|] == r[..|d|][..|dir|];
  }

  /** A directory path that is not empty and does not end in `/`, so that
      joining a name onto it inserts a `/`. */
  predicate PlainDir(exp: string)
  {
    |exp| > 0 && exp[|exp| - 1] != '/'
  }

  /** Every run `glob` matches is a plain directory path. */
  lemma RunPathShape(exp: string)
    requires InDirWithPrefix(exp, RunRoot, RunPrefix)
    ensures PlainDir(exp)
  {
    assert exp[|exp| - 1] == exp[|RunRoot| + 1..][|exp| - |RunRoot| - 2];
  }

  /** The stem of a name holds no `/` when the name holds none. */
  lemma StemNoSlash(name: string)
    requires NoSlash(name)
    ensures NoSlash(Stem(name))
  {
    var stem := Stem(name);
    assert stem + SplitExt(name).1 == name;
    assert forall i :: 0 <= i < |stem| ==> stem[i] == name[i];
  }

  /** Joining a plain name onto a plain directory puts one `/` between them. */
  lemma JoinPlain(dir: string, name: string)
    requires PlainDir(dir) && (|name| == 0 || name[0] != '/')
    ensures Join(dir, name) == dir + "/" + name
  {
  }

  /** The label file's name is the temporary file's stem with `.txt`: a
      plain name. */
  lemma LabelNamePlain(tmp: string)
    ensures var name := Stem(Basename(tmp)) + ".txt";
      |name| > 0 && NoSlash(name) && name[0] != '/'
  {
    var stem := Stem(Basename(tmp));
    var name := stem + ".txt";
    StemNoSlash(Basename(tmp));
    assert forall i :: 0 <= i < |stem| ==> name[i] == stem[i];
    assert forall i :: |stem| <= i < |name| ==> name[i] == ".txt"[i - |stem|];
  }

  /** The labels subdirectory of a plain directory, joined with a plain name. */
  lemma JoinLabels(exp: string, name: string)
    requires PlainDir(exp) && |name| > 0 && name[0] != '/'
    ensures Join(Join(exp, "labels"), name) == exp + "/labels/" + name
  {
    JoinPlain(exp, "labels");
    var labels := exp + "/labels";
    assert labels[|labels| - 1] == 's';
    JoinPlain(labels, name);
    assert labels + "/" + name == exp + "/labels/" + name;
  }

  /** The label file of a run is `<run>/labels/<stem>.txt`, where `stem` is the
      temporary file's name without its extension. */
  lemma LabelPathShape(exp: string, tmp: string)
    requires PlainDir(exp)
    ensures LabelPath(exp, tmp) == exp + "/labels/" + Stem(Basename(tmp)) + ".txt"
    ensures Basename(LabelPath(exp, tmp)) == Stem(Basename(tmp)) + ".txt"
  {
    var stem := Stem(Basename(tmp));
    var name := stem + ".txt";
    LabelNamePlain(tmp);
    JoinLabels(exp, name);
    AppendAssoc(exp + "/labels/", stem, ".txt");
    BasenameOfJoin(Join(exp, "labels"), name);
  }

  /** The annotated image of a run is `<run>/<basename>`. */
  lemma OutputImagePathShape(exp: string, tmp: string)
    requires PlainDir(exp)
    requires |Basename(tmp)| > 0
    ensures OutputImagePath(exp, tmp) == exp + "/" + Basename(tmp)
    ensures Basename(OutputImagePath(exp, tmp)) == Basename(tmp)
  {
    JoinPlain(exp, Basename(tmp));
    BasenameOfJoin(exp, Basename(tmp));
  }

  /** Lines 79 and 83-85: the exact output image when it exists, else the
      first `<stem>.*` entry of the run in scan order, else nothing. Whatever
      it finds exists, so in this model, which has no symbolic links, the test
      on lines 97-98 never fires. */
  function FindOutputImage(fs: FileSystem, exp: string, tmp: string): (r: Option<string>)
    ensures r.Some? ==> Exists(fs, r.value)
    ensures Exists(fs, OutputImagePath(exp, tmp)) ==> r == Some(OutputImagePath(exp, tmp))
    ensures !Exists(fs, OutputImagePath(exp, tmp)) ==>
      (r.None? <==> Glob(fs, exp, Stem(Basename(tmp)) + ".") == [])
    ensures r.Some? && r.value != OutputImagePath(exp, tmp) ==>
      InDirWithPrefix(r.value, exp, Stem(Basename(tmp)) + ".")
    ensures !Exists(fs, OutputImagePath(exp, tmp)) && r.Some? ==>
      forall q :: q in Glob(fs, exp, Stem(Basename(tmp)) + ".") && q != r.value ==> Before(fs.listing, r.value, q)
  {
    var exact := OutputImagePath(exp, tmp);
    if Exists(fs, exact) then Some(exact)
    else
      var found := Glob(fs, exp, Stem(Basename(tmp)) + ".");
      if |found| > 0 then
        assert found[0] in found;
        FirstMatchPrecedes(fs, exp, Stem(Basename(tmp)) + ".");
        Some(found[0])
      else None
  }

  /** The image search finds a non-empty path whenever it finds one. */
  lemma FoundImageIsTruthy(fs: FileSystem, exp: string, tmp: string)
    requires PlainDir(exp)
    ensures FindOutputImage(fs, exp, tmp).Some? ==> Truthy(FindOutputImage(fs, exp, tmp))
  {
    var img := FindOutputImage(fs, exp, tmp);
    var exact := OutputImagePath(exp, tmp);
    if img.Some? {
      if img.value == exact {
        var name := Basename(tmp);
        assert |name| == 0 || name[0] != '/';
        assert |exact| >= |exp|;
      } else {
        assert InDirWithPrefix(img.value, exp, Stem(Basename(tmp)) + ".");
      }
    }
  }

  /** Lines 75-101, once the detector has returned: the result built from
      the newest run directory in `fs`. */
  function ResolveRun(fs: FileSystem, tmp: string, filename: string): (r: DetectionResult)
    ensures r.filename == filename
    ensures r.imagePath.Some? ==> Exists(fs, r.imagePath.value)
    ensures LatestRun(fs).None? ==> r == DetectionResult(filename, [], None, Some(NoRunMessage))
  {
    var latest := LatestRun(fs);
    if !Truthy(latest) then DetectionResult(filename, [], None, Some(NoRunMessage))
    else ResolveIn(fs, latest.value, tmp, filename)
  }

  /** Lines 78-101 for run directory `exp`. */
  function ResolveIn(fs: FileSystem, exp: string, tmp: string, filename: string): (r: DetectionResult)
    ensures r.filename == filename
    ensures r.imagePath.Some? ==> Exists(fs, r.imagePath.value)
  {
    Assemble(fs, exp, tmp, filename, FindOutputImage(fs, exp, tmp), ReadDetectionLabels(fs, LabelPath(exp, tmp)))
  }

  /** Lines 86-101, given the image the search found and the outcome of
      reading the label file. An exception while reading or translating the
      labels replaces the whole record, so a missing-image error set before it
      is lost. */
  function Assemble(fs: FileSystem, exp: string, tmp: string, filename: string,
                    img: Option<string>, read: Result<seq<int>>): (r: DetectionResult)
    ensures r.filename == filename
    ensures r.imagePath.Some? ==> Exists(fs, r.imagePath.value)
  {
    var initial := DetectionResult(filename, [], None, None);
    var err := if Exists(fs, OutputImagePath(exp, tmp)) || Truthy(img) then None else Some(ImageNotFoundIn(exp));
    match read
    case Failure(e) => initial.(error := Some(Str(e)))
    case Success(indices) =>
      match TranslateLabels(indices)
      case Failure(e) => initial.(error := Some(Str(e)))
      case Success(names) =>
        var path := if img.Some? then img.value else "";
        var shown := if Truthy(img) && Exists(fs, path) then img else None;
        var err' := if Truthy(img) && !Exists(fs, path) then Some(ImageMissing(path)) else err;
        DetectionResult(filename, names, shown, err')
  }

  /** With an image search that only finds existing, non-empty paths and finds
      one whenever the exact image exists, the result is determined case by
      case by the label outcome. */
  lemma AssembleCases(fs: FileSystem, exp: string, tmp: string, filename: string,
                      img: Option<string>, read: Result<seq<int>>)
    requires img.Some? ==> Truthy(img) && Exists(fs, img.value)
    requires img.None? ==> !Exists(fs, OutputImagePath(exp, tmp))
    ensures var r := Assemble(fs, exp, tmp, filename, img, read);
      match read
      case Failure(e) => r == DetectionResult(filename, [], None, Some(Str(e)))
      case Success(indices) =>
        match TranslateLabels(indices)
        case Failure(e) => r == DetectionResult(filename, [], None, Some(Str(e)))
        case Success(names) =>
          && r.labels == names
          && r.imagePath == img
          && (r.error.None? <==> img.Some?)
          && (img.None? ==> r.error == Some(ImageNotFoundIn(exp)))
  {
    if read.Success? && TranslateLabels(read.value).Success? {
      AssembleTranslated(fs, exp, tmp, filename, img, read.value);
    }
  }

  lemma AssembleTranslated(fs: FileSystem, exp: string, tmp: string, filename: string,
                           img: Option<string>, indices: seq<int>)
    requires img.Some? ==> Truthy(img) && Exists(fs, img.value)
    requires img.None? ==> !Exists(fs, OutputImagePath(exp, tmp))
    requires TranslateLabels(indices).Success?
    ensures Assemble(fs, exp, tmp, filename, img, Success(indices)) ==
      DetectionResult(filename, TranslateLabels(indices).value, img,
                      if img.Some? then None else Some(ImageNotFoundIn(exp)))
  {
  }

  /** The run the result is built from is the one `LatestRun` picks. */
  lemma ResolveRunUsesLatest(fs: FileSystem, tmp: string, filename: string, exp: string)
    requires LatestRun(fs) == Some(exp)
    ensures PlainDir(exp)
    ensures ResolveRun(fs, tmp, filename) == ResolveIn(fs, exp, tmp, filename)
  {
    RunPathShape(exp);
  }

  /** For a run directory, the labels and the image are what the label file
      and the image search give: a failure to read or translate the labels
      leaves no labels and no image and reports the exception; otherwise the
      names are the translated labels, the image is the one found, and the
      only possible error is that no image was found. */
  lemma ResolveInCases(fs: FileSystem, exp: string, tmp: string, filename: string)
    requires PlainDir(exp)
    ensures var r := ResolveIn(fs, exp, tmp, filename);
      var img := FindOutputImage(fs, exp, tmp);
      match ReadDetectionLabels(fs, LabelPath(exp, tmp))
      case Failure(e) => r == DetectionResult(filename, [], None, Some(Str(e)))
      case Success(indices) =>
        match TranslateLabels(indices)
        case Failure(e) => r == DetectionResult(filename, [], None, Some(Str(e)))
        case Success(names) =>
          && r.labels == names
          && r.imagePath == img
          && (r.error.None? <==> img.Some?)
          && (img.None? ==> r.error == Some(ImageNotFoundIn(exp)))
  {
    FoundImageIsTruthy(fs, exp, tmp);
    AssembleCases(fs, exp, tmp, filename, FindOutputImage(fs, exp, tmp), ReadDetectionLabels(fs, LabelPath(exp, tmp)));
  }

  /** A label index below minus the table length makes the translation raise
      `IndexError`; the handler stores its message and the record keeps no
      labels and no image. */
  lemma TooNegativeIndexIsError(fs: FileSystem, exp: string, tmp: string, filename: string, indices: seq<int>)
    requires PlainDir(exp)
    requires ReadDetectionLabels(fs, LabelPath(exp, tmp)) == Success(indices)
    requires exists i :: 0 <= i < |indices| && indices[i] < -|ClassNames|
    ensures ResolveIn(fs, exp, tmp, filename) == DetectionResult(filename, [], None, Some("list index out of range"))
  {
    ResolveInCases(fs, exp, tmp, filename);
  }

  /** No error means a run was found and an image is shown. */
  lemma NoErrorHasImage(fs: FileSystem, tmp: string, filename: string)
    ensures var r := ResolveRun(fs, tmp, filename);
      r.error.None? ==> LatestRun(fs).Some? && r.imagePath.Some?
  {
    if LatestRun(fs).Some? {
      var exp := LatestRun(fs).value;
      ResolveRunUsesLatest(fs, tmp, filename, exp);
      ResolveInCases(fs, exp, tmp, filename);
    }
  }

  /** Neither the exact image nor any `<stem>.*` in the run: the result has no
      image and a non-empty error, whatever became of the labels. */
  lemma ImageAbsentIsError(fs: FileSystem, exp: string, tmp: string, filename: string)
    requires PlainDir(exp)
    requires !Exists(fs, OutputImagePath(exp, tmp))
    requires Glob(fs, exp, Stem(Basename(tmp)) + ".") == []
    ensures ResolveIn(fs, exp, tmp, filename).imagePath.None?
    ensures ResolveIn(fs, exp, tmp, filename).error.Some?
    ensures |ResolveIn(fs, exp, tmp, filename).error.value| > 0
  {
    var read := ReadDetectionLabels(fs, LabelPath(exp, tmp));
    assert FindOutputImage(fs, exp, tmp).None?;
    ResolveInCases(fs, exp, tmp, filename);
    if read.Failure? {
      ReadErrorKinds(fs, LabelPath(exp, tmp));
      assert !read.error.DetectorError?;
    } else if TranslateLabels(read.value).Failure? {
      assert TranslateLabels(read.value).error == IndexError;
    }
  }

  /** No label file next to an existing image is zero detections and no error. */
  lemma NoLabelFileIsNoDetections(fs: FileSystem, exp: string, tmp: string, filename: string)
    requires PlainDir(exp)
    requires Exists(fs, OutputImagePath(exp, tmp))
    requires !Exists(fs, LabelPath(exp, tmp))
    ensures ResolveIn(fs, exp, tmp, filename) == DetectionResult(filename, [], Some(OutputImagePath(exp, tmp)), None)
  {
    ResolveInCases(fs, exp, tmp, filename);
    assert TranslateLabels([]) == Success([]);
  }

  /** A run whose label file holds one line per detection of classes inside
      the table, next to the annotated image, resolves to the class names in
      file order, the image, and no error. */
  lemma ResolveWrittenRun(fs: FileSystem, exp: string, tmp: string, filename: string,
                          classes: seq<int>, tails: seq<string>)
    requires PlainDir(exp)
    requires Exists(fs, OutputImagePath(exp, tmp))
    requires |classes| == |tails|
    requires forall i :: 0 <= i < |tails| ==> IsFieldTail(tails[i])
    requires Exists(fs, LabelPath(exp, tmp)) && fs.nodes[LabelPath(exp, tmp)].File?
    requires fs.nodes[LabelPath(exp, tmp)].data == Concat(LabelLines(classes, tails))
    requires forall i :: 0 <= i < |classes| ==> 0 <= classes[i] < |ClassNames|
    ensures var r := ResolveIn(fs, exp, tmp, filename);
      && |r.labels| == |classes|
      && (forall i :: 0 <= i < |classes| ==> r.labels[i] == ClassNames[classes[i]])
      && r.imagePath == Some(OutputImagePath(exp, tmp))
      && r.error.None?
  {
    ReadBackWrittenLabels(fs, LabelPath(exp, tmp), classes, tails);
    ResolveInCases(fs, exp, tmp, filename);
    TranslateInRange(classes);
  }

  /** The `finally` block: remove the temporary file if it is still there.
      Removing a directory raises and escapes the call. */
  function Cleanup(fs: FileSystem, tmp: string, result: DetectionResult): (o: Outcome)
    ensures o.Returned? ==> o.result == result && !Exists(o.fs, tmp) && SameExcept(fs, o.fs, tmp)
    ensures o.Returned? <==> !IsDir(fs, tmp)
    ensures o.CleanupFailed? ==> o.error == IsADirectoryError(tmp) && o.fs == fs
    ensures !o.StagingFailed? && !o.LoadFailed?
    ensures Valid(fs) ==> Valid(o.fs)
  {
    if !Exists(fs, tmp) then Returned(result, fs)
    else if IsDir(fs, tmp) then CleanupFailed(IsADirectoryError(tmp), fs)
    else Returned(result, Remove(fs, tmp))
  }

  /** `run_detection_logic(file)`. `tmp` is the fresh name `tempfile` picks and
      `clock` the time the file is written. An empty upload makes `cv2.imdecode`
      raise on line 52, before any file exists. An undecodable upload makes
      `cv2.imwrite` raise before the `try`, leaving the empty temporary file
      behind. Otherwise the call returns a result for the upload's name and
      the temporary file is gone afterwards, unless the detector put a
      directory in its place. */
  function RunDetectionLogic(fs: FileSystem, upload: Upload, tmp: string, clock: int, detector: DetectorRun): (o: Outcome)
    ensures o.LoadFailed? <==> upload.decoding.DecodeRaises?
    ensures o.LoadFailed? ==> o.fs == fs
    ensures o.StagingFailed? <==> upload.decoding.NoImage?
    ensures o.StagingFailed? ==> Exists(o.fs, tmp) && o.fs.nodes[tmp] == File("", clock) && SameExcept(fs, o.fs, tmp)
    ensures o.Returned? ==> o.result.filename == upload.name && !Exists(o.fs, tmp)
    ensures upload.decoding.Jpeg? && (forall k :: 0 <= k < |detector.writes| ==> detector.writes[k].0 != tmp) ==> o.Returned?
    ensures o.CleanupFailed? ==> o.error == IsADirectoryError(tmp) && IsDir(o.fs, tmp)
    ensures o.Returned? && detector.Threw? ==>
      o.result == DetectionResult(upload.name, [], None, Some(detector.message))
    ensures upload.decoding.Jpeg? && o.Returned? ==>
      SameExcept(AfterDetector(fs, upload.decoding.bytes, tmp, clock, detector), o.fs, tmp)
    ensures upload.decoding.Jpeg? && o.CleanupFailed? ==>
      o.fs == AfterDetector(fs, upload.decoding.bytes, tmp, clock, detector)
    ensures Valid(fs) ==> Valid(o.fs)
  {
    match upload.decoding
    case DecodeRaises => LoadFailed(fs)
    case NoImage => StagingFailed(Put(fs, tmp, File("", clock)))
    case Jpeg(jpeg) =>
      var after := AfterDetector(fs, jpeg, tmp, clock, detector);
      var result :=
        match detector
        case Threw(message, _) => DetectionResult(upload.name, [], None, Some(Str(DetectorError(message))))
        case Completed(_) => ResolveRun(after, tmp, upload.name);
      Cleanup(after, tmp, result)
  }

  /** The filesystem once the temporary file holds `jpeg` and the detector
      has made its writes: everything the detector wrote exists, and the
      temporary file still holds the upload unless the detector wrote over it. */
  function AfterDetector(fs: FileSystem, jpeg: string, tmp: string, clock: int, detector: DetectorRun): (r: FileSystem)
    ensures forall k :: 0 <= k < |detector.writes| ==> Exists(r, detector.writes[k].0)
    ensures (forall k :: 0 <= k < |detector.writes| ==> detector.writes[k].0 != tmp) ==>
      Exists(r, tmp) && r.nodes[tmp] == File(jpeg, clock)
    ensures forall k :: 0 <= k < |detector.writes| && LastWriteTo(detector.writes, k) ==>
      detector.writes[k].0 in r.nodes && r.nodes[detector.writes[k].0] == detector.writes[k].1
    ensures forall q :: q != tmp && (forall k :: 0 <= k < |detector.writes| ==> detector.writes[k].0 != q) ==>
      (Exists(r, q) <==> Exists(fs, q)) && (Exists(fs, q) ==> r.nodes[q] == fs.nodes[q])
    ensures Valid(fs) ==> Valid(r)
  {
    PutAll(Put(fs, tmp, File(jpeg, clock)), detector.writes)
  }

  /** The result's image, when there is one, existed after the detector ran. */
  lemma ImagePathExisted(fs: FileSystem, upload: Upload, tmp: string, clock: int, detector: DetectorRun)
    requires upload.decoding.Jpeg?
    ensures var o := RunDetectionLogic(fs, upload, tmp, clock, detector);
      o.Returned? && o.result.imagePath.Some? ==>
        Exists(AfterDetector(fs, upload.decoding.bytes, tmp, clock, detector), o.result.imagePath.value)
  {
  }

  /** With no run directory after a detector that returned, the call reports
      that no run was found, with no labels and no image. */
  lemma NoRunIsError(fs: FileSystem, upload: Upload, tmp: string, clock: int, detector: DetectorRun)
    requires upload.decoding.Jpeg? && detector.Completed?
    requires LatestRun(AfterDetector(fs, upload.decoding.bytes, tmp, clock, detector)).None?
    ensures var o := RunDetectionLogic(fs, upload, tmp, clock, detector);
      o.Returned? ==> o.result == DetectionResult(upload.name, [], None, Some(NoRunMessage))
  {
  }

  /** A detector that returns and leaves the temporary file alone: the call
      returns what resolution finds in the filesystem the detector left, and
      the filesystem afterwards is that one without the temporary file. */
  lemma CompletedReturns(fs: FileSystem, upload: Upload, tmp: string, clock: int, detector: DetectorRun)
    requires upload.decoding.Jpeg? && detector.Completed?
    requires forall k :: 0 <= k < |detector.writes| ==> detector.writes[k].0 != tmp
    ensures var after := AfterDetector(fs, upload.decoding.bytes, tmp, clock, detector);
      RunDetectionLogic(fs, upload, tmp, clock, detector) ==
        Returned(ResolveRun(after, tmp, upload.name), Remove(after, tmp))
  {
    var after := AfterDetector(fs, upload.decoding.bytes, tmp, clock, detector);
    assert after.nodes[tmp] == File(upload.decoding.bytes, clock);
  }

  /** End to end: a decodable upload, and a detector that leaves the temporary
      file alone and writes a newest run holding the annotated image and one
      label line per detection of classes inside the table. The call returns
      the upload's name, the class names in file order, the image inside that
      run and no error, and the temporary file is removed. */
  lemma DetectionEndToEnd(fs: FileSystem, upload: Upload, tmp: string, clock: int, detector: DetectorRun,
                          exp: string, classes: seq<int>, tails: seq<string>)
    requires upload.decoding.Jpeg? && detector.Completed?
    requires |classes| == |tails|
    requires forall i :: 0 <= i < |tails| ==> IsFieldTail(tails[i])
    requires forall i :: 0 <= i < |classes| ==> 0 <= classes[i] < |ClassNames|
    requires forall k :: 0 <= k < |detector.writes| ==> detector.writes[k].0 != tmp
    requires var after := AfterDetector(fs, upload.decoding.bytes, tmp, clock, detector);
      && LatestRun(after) == Some(exp)
      && Exists(after, OutputImagePath(exp, tmp))
      && Exists(after, LabelPath(exp, tmp)) && after.nodes[LabelPath(exp, tmp)].File?
      && after.nodes[LabelPath(exp, tmp)].data == Concat(LabelLines(classes, tails))
    ensures var o := RunDetectionLogic(fs, upload, tmp, clock, detector);
      && o.Returned?
      && o.result.filename == upload.name
      && |o.result.labels| == |classes|
      && (forall i :: 0 <= i < |classes| ==> o.result.labels[i] == ClassNames[classes[i]])
      && o.result.imagePath == Some(OutputImagePath(exp, tmp))
      && o.result.error.None?
      && !Exists(o.fs, tmp)
  {
    var after := AfterDetector(fs, upload.decoding.bytes, tmp, clock, detector);
    CompletedReturns(fs, upload, tmp, clock, detector);
    var o := RunDetectionLogic(fs, upload, tmp, clock, detector);
    ResolveRunUsesLatest(after, tmp, upload.name, exp);
    var r := ResolveIn(after, exp, tmp, upload.name);
    assert o.result == r && o.fs == Remove(after, tmp);
    ResolveWrittenRun(after, exp, tmp, upload.name, classes, tails);
  }
}

=== FILE: files.dfy ===
/** The filesystem as a value: what exists at each path, and the order in which
    a directory scan (and therefore `glob`) lists paths. Directories and files
    carry a modification time. Paths are compared as strings, unnormalised. */
module Files {
  import opened PyBase
  import opened PyPath

  datatype Node = File(data: string, mtime: int) | Dir(mtime: int)

  datatype FileSystem = FileSystem(nodes: map<string, Node>, listing: seq<string>)

  /** The scan order lists every existing path exactly once. */
  ghost predicate Valid(fs: FileSystem)
  {
    && Distinct(fs.listing)
    && forall p :: p in fs.nodes <==> p in fs.listing
  }

  /** `os.path.exists(p)`. */
  predicate Exists(fs: FileSystem, p: string)
  {
    p in fs.nodes
  }

  predicate IsDir(fs: FileSystem, p: string)
  {
    p in fs.nodes && fs.nodes[p].Dir?
  }

  /** Every path other than `p` is in `a` exactly when it is in `b`, with the same node. */
  ghost predicate SameExcept(a: FileSystem, b: FileSystem, p: string)
  {
    forall q :: q != p ==> (q in a.nodes <==> q in b.nodes) && (q in a.nodes ==> a.nodes[q] == b.nodes[q])
  }

  /** Creates `p`, or replaces what is there, with node `n`. A new path is
      listed after the existing ones. */
  function Put(fs: FileSystem, p: string, n: Node): (r: FileSystem)
    ensures Exists(r, p) && r.nodes[p] == n
    ensures SameExcept(fs, r, p)
    ensures Valid(fs) ==> Valid(r)
  {
    FileSystem(fs.nodes[p := n], if p in fs.listing then fs.listing else fs.listing + [p])
  }

  /** `os.remove(p)` once it is known to succeed. */
  function Remove(fs: FileSystem, p: string): (r: FileSystem)
    ensures !Exists(r, p)
    ensures SameExcept(fs, r, p)
    ensures Valid(fs) ==> Valid(r)
  {
    var listing := Filter(fs.listing, q => q != p);
    FilterDistinct(fs.listing, q => q != p);
    FilterComplete(fs.listing, q => q != p);
    FileSystem(fs.nodes - {p}, listing)
  }

  /** A sequence of writes applied in order. */
  function PutAll(fs: FileSystem, writes: seq<(string, Node)>): (r: FileSystem)
    ensures forall k :: 0 <= k < |writes| ==> Exists(r, writes[k].0)
    ensures forall q :: (forall k :: 0 <= k < |writes| ==> writes[k].0 != q) ==>
              (q in r.nodes <==> q in fs.nodes) && (q in fs.nodes ==> r.nodes[q] == fs.nodes[q])
    ensures forall k :: 0 <= k < |writes| && LastWriteTo(writes, k) ==>
      writes[k].0 in r.nodes && r.nodes[writes[k].0] == writes[k].1
    ensures Valid(fs) ==> Valid(r)
    decreases |writes|
  {
    if |writes| == 0 then fs
    else
      var r := PutAll(Put(fs, writes[0].0, writes[0].1), writes[1..]);
      assert forall k :: 1 <= k < |writes| ==> writes[k] == writes[1..][k - 1];
      assert forall k :: 1 <= k < |writes| && LastWriteTo(writes, k) ==> LastWriteTo(writes[1..], k - 1);
      r
  }

  /** Write `k` is the last one to its path: no later write names the same path. */
  predicate LastWriteTo(writes: seq<(string, Node)>, k: int)
    requires 0 <= k < |writes|
  {
    forall j :: k < j < |writes| ==> writes[j].0 != writes[k].0
  }

  /** `p` is `dir/name` for a name that starts with `prefix` and holds no `/`:
      what the pattern `dir/prefix*` matches when neither part holds a glob
      metacharacter. */
  predicate InDirWithPrefix(p: string, dir: string, prefix: string)
  {
    && |p| >= |dir| + 1 + |prefix|
    && p[..|dir|] == dir
    && p[|dir|] == '/'
    && p[|dir| + 1..|dir| + 1 + |prefix|] == prefix
    && NoSlash(p[|dir| + 1..])
  }

  /** `glob("dir/prefix*")`: the existing matching paths, in scan order. */
  function Glob(fs: FileSystem, dir: string, prefix: string): (r: seq<string>)
    ensures forall q :: q in r <==> q in fs.listing && Exists(fs, q) && InDirWithPrefix(q, dir, prefix)
    ensures Valid(fs) ==> Distinct(r)
    ensures forall a, b :: 0 <= a < b < |r| ==> Before(fs.listing, r[a], r[b])
  {
    var keep := q => q in fs.nodes && InDirWithPrefix(q, dir, prefix);
    var r := Filter(fs.listing, keep);
    FilterDistinct(fs.listing, keep);
    FilterComplete(fs.listing, keep);
    forall a, b | 0 <= a < b < |r| ensures Before(fs.listing, r[a], r[b]) {
      FilterKeepsOrder(fs.listing, keep, a, b);
    }
    r
  }

  /** The first match comes before every other match in the scan. */
  lemma FirstMatchPrecedes(fs: FileSystem, dir: string, prefix: string)
    requires |Glob(fs, dir, prefix)| > 0
    ensures var g := Glob(fs, dir, prefix);
      forall q :: q in g && q != g[0] ==> Before(fs.listing, g[0], q)
  {
    var g := Glob(fs, dir, prefix);
    forall q | q in g && q != g[0] ensures Before(fs.listing, g[0], q) {
      var j :| 0 <= j < |g| && g[j] == q;
      assert 0 < j;
    }
  }

  /** Two matches appear in the result in the order the scan lists them. */
  lemma GlobFollowsListing(fs: FileSystem, dir: string, prefix: string, i: int, j: int)
    requires 0 <= i < j < |fs.listing|
    requires fs.listing[i] in Glob(fs, dir, prefix) && fs.listing[j] in Glob(fs, dir, prefix)
    ensures Before(Glob(fs, dir, prefix), fs.listing[i], fs.listing[j])
  {
    var keep := q => q in fs.nodes && InDirWithPrefix(q, dir, prefix);
    assert Glob(fs, dir, prefix) == Filter(fs.listing, keep);
    FilterFollowsOrder(fs.listing, keep, i, j);
  }
}

=== FILE: label_file.dfy ===
/** `read_detection_labels`: the class index of every detection in a label
    file, one per line, taken from the line's first whitespace-separated field. */
module LabelFile {
  import opened PyBase
  import opened PyText
  import opened Files

  /** `int(line.split()[0])`: a blank line raises `IndexError`; any other line
      is the `int()` of its first field, so it raises `ValueError` on that field
      when it is not an integer. */
  function ParseLabelLine(line: string): (r: Result<int>)
    ensures AllSpace(line) <==> r == Failure(IndexError)
    ensures r.Failure? && !AllSpace(line) ==> r.error == ValueError(Split(line)[0])
    ensures r.Success? ==> |Split(line)| > 0 && ParseInt(Split(line)[0]) == r
  {
    var fields := Split(line);
    if |fields| == 0 then Failure(IndexError) else ParseInt(fields[0])
  }

  /** A written line, however indented: `int((ws + str(c) + tail).split()[0]) == c`. */
  lemma IndentedLineReadsBack(ws: string, c: int, tail: string)
    requires AllSpace(ws)
    requires |tail| == 0 || IsSpace(tail[0])
    ensures ParseLabelLine(ws + IntToString(c) + tail) == Success(c)
  {
    FirstFieldAfterSpace(ws, IntToString(c), tail);
    ParseIntRoundTrip(c);
  }

  /** The first field of an indented line is the token it starts with. */
  lemma FirstFieldAfterSpace(ws: string, tok: string, tail: string)
    requires AllSpace(ws) && IsToken(tok)
    requires |tail| == 0 || IsSpace(tail[0])
    ensures |Split(ws + tok + tail)| > 0 && Split(ws + tok + tail)[0] == tok
  {
    SplitFirst(tok, tail);
    SplitLeadingSpace(ws, tok + tail);
    AppendAssoc(ws, tok, tail);
  }

  /** `int(" 3 0.5".split()[0]) == 3`. */
  lemma IndentedLineExample()
    ensures ParseLabelLine(" 3 0.5") == Success(3)
  {
    var line := " 3 0.5";
    assert IntToString(3) == "3" by {
      assert NatToString(3) == [DigitChar(3)];
    }
    assert line == " " + IntToString(3) + " 0.5";
    IndentedLineReadsBack(" ", 3, " 0.5");
  }

  /** Line `i` is the first whose parse raises. */
  ghost predicate FirstBadLine(lines: seq<string>, parse: string -> Result<int>, i: int)
  {
    && 0 <= i < |lines|
    && parse(lines[i]).Failure?
    && forall j :: 0 <= j < i ==> parse(lines[j]).Success?
  }

  /** A list comprehension over lines: each line's value in order, or the
      exception of the first line that raises. */
  function ParseEach(lines: seq<string>, parse: string -> Result<int>): (r: Result<seq<int>>)
    ensures r.Success? <==> forall i :: 0 <= i < |lines| ==> parse(lines[i]).Success?
    ensures r.Success? ==> |r.value| == |lines|
    ensures r.Success? ==> forall i :: 0 <= i < |lines| ==> parse(lines[i]) == Success(r.value[i])
  {
    if |lines| == 0 then Success([])
    else
      var rest := ParseEach(lines[1..], parse);
      assert forall i :: 1 <= i < |lines| ==> lines[i] == lines[1..][i - 1];
      match parse(lines[0])
      case Failure(e) => Failure(e)
      case Success(c) =>
        if rest.Failure? then rest else Success([c] + rest.value)
  }

  /** When the comprehension raises, it raises the exception of its first bad line. */
  lemma {:induction false} ParseEachFailure(lines: seq<string>, parse: string -> Result<int>)
    ensures var r := ParseEach(lines, parse);
      r.Failure? ==> exists i :: FirstBadLine(lines, parse, i) && parse(lines[i]) == Failure(r.error)
  {
    var r := ParseEach(lines, parse);
    if |lines| > 0 && r.Failure? {
      if parse(lines[0]).Failure? {
        assert FirstBadLine(lines, parse, 0);
      } else {
        var tail := lines[1..];
        assert r == ParseEach(tail, parse);
        ParseEachFailure(tail, parse);
        var i :| FirstBadLine(tail, parse, i) && parse(tail[i]) == Failure(r.error);
        assert forall j :: 0 <= j < |tail| ==> tail[j] == lines[j + 1];
        assert FirstBadLine(lines, parse, i + 1);
      }
    }
  }

  /** `[int(line.split()[0]) for line in lines]`. */
  function ParseLabelLines(lines: seq<string>): Result<seq<int>>
  {
    ParseEach(lines, ParseLabelLine)
  }

  /** `read_detection_labels(txt_path)`: no file means no detections; a
      directory cannot be opened; a file is read in universal-newlines mode and
      parsed line by line. */
  function ReadDetectionLabels(fs: FileSystem, path: string): (r: Result<seq<int>>)
    ensures !Exists(fs, path) ==> r == Success([])
    ensures IsDir(fs, path) ==> r == Failure(IsADirectoryError(path))
    ensures Exists(fs, path) && fs.nodes[path].File? ==>
      r == ParseLabelLines(ReadLines(TranslateNewlines(fs.nodes[path].data)))
  {
    if path !in fs.nodes then Success([])
    else
      match fs.nodes[path]
      case Dir(_) => Failure(IsADirectoryError(path))
      case File(data, _) => ParseLabelLines(ReadLines(TranslateNewlines(data)))
  }

  /** Reading labels raises only what the reading code itself raises: the
      directory error from `open`, `IndexError` for a blank line, or
      `ValueError` from `int()` on the first bad line's first field. */
  lemma ReadErrorKinds(fs: FileSystem, path: string)
    ensures var r := ReadDetectionLabels(fs, path);
      r.Failure? ==> r.error.IndexError? || r.error.ValueError? || r.error == IsADirectoryError(path)
  {
    if path in fs.nodes && fs.nodes[path].File? {
      var lines := ReadLines(TranslateNewlines(fs.nodes[path].data));
      var r := ParseEach(lines, ParseLabelLine);
      ParseEachFailure(lines, ParseLabelLine);
      if r.Failure? {
        var i :| FirstBadLine(lines, ParseLabelLine, i) && ParseLabelLine(lines[i]) == Failure(r.error);
      }
    }
  }

  /** What follows the class index on a label line: nothing, or whitespace
      and further fields, on the same line. */
  predicate IsFieldTail(tail: string)
  {
    && (|tail| == 0 || IsSpace(tail[0]))
    && forall i :: 0 <= i < |tail| ==> tail[i] != '\n' && tail[i] != '\r'
  }

  /** Each class index followed by its other fields, without a line ending. */
  function LabelBodies(classes: seq<int>, tails: seq<string>): (bs: seq<string>)
    requires |classes| == |tails|
    ensures |bs| == |classes|
    ensures forall i :: 0 <= i < |bs| ==> bs[i] == IntToString(classes[i]) + tails[i]
  {
    seq(|classes|, i requires 0 <= i < |classes| => IntToString(classes[i]) + tails[i])
  }

  /** The lines the detector writes: each class index, its other fields, a newline. */
  function LabelLines(classes: seq<int>, tails: seq<string>): (ls: seq<string>)
    requires |classes| == |tails|
    ensures |ls| == |classes|
    ensures forall i :: 0 <= i < |ls| ==> ls[i] == IntToString(classes[i]) + tails[i] + "\n"
  {
    WithEnding(LabelBodies(classes, tails), "\n")
  }

  /** A label file written as one `<class> <fields...>` line per detection is
      read back as exactly those classes, in order. */
  lemma ReadBackWrittenLabels(fs: FileSystem, path: string, classes: seq<int>, tails: seq<string>)
    requires |classes| == |tails|
    requires forall i :: 0 <= i < |tails| ==> IsFieldTail(tails[i])
    requires Exists(fs, path) && fs.nodes[path].File?
    requires fs.nodes[path].data == Concat(LabelLines(classes, tails))
    ensures ReadDetectionLabels(fs, path) == Success(classes)
  {
    var ls := LabelLines(classes, tails);
    forall i | 0 <= i < |ls|
      ensures forall j :: 0 <= j < |ls[i]| ==> ls[i][j] != '\r'
    {
      WrittenLineReadsBack(classes[i], tails[i]);
    }
    NoCarriageReturn(ls);
    TranslateNewlinesNoCr(Concat(ls));
    WrittenTextParses(classes, tails);
  }

  /** The same file written with Windows `\r\n` or old Macintosh `\r` line
      endings is read back as the same classes: universal newlines turn every
      ending into `\n` before the lines are parsed. */
  lemma ReadBackLabelsAnyEnding(fs: FileSystem, path: string, classes: seq<int>, tails: seq<string>, eol: string)
    requires |classes| == |tails|
    requires forall i :: 0 <= i < |tails| ==> IsFieldTail(tails[i])
    requires LineEnding(eol)
    requires Exists(fs, path) && fs.nodes[path].File?
    requires fs.nodes[path].data == Concat(WithEnding(LabelBodies(classes, tails), eol))
    ensures ReadDetectionLabels(fs, path) == Success(classes)
  {
    var bs := LabelBodies(classes, tails);
    forall k | 0 <= k < |bs| ensures IsLineBody(bs[k]) {
      LabelBodyIsLineBody(classes[k], tails[k]);
    }
    TranslateLineEndings(bs, eol);
    WrittenTextParses(classes, tails);
  }

  lemma LabelBodyIsLineBody(c: int, tail: string)
    requires IsFieldTail(tail)
    ensures IsLineBody(IntToString(c) + tail)
  {
    var tok := IntToString(c);
    var b := tok + tail;
    assert forall i :: 0 <= i < |tok| ==> b[i] == tok[i];
    assert forall i :: |tok| <= i < |b| ==> b[i] == tail[i - |tok|];
  }

  /** The `\n`-ended label lines, joined and read with `readlines()`, parse to
      the classes they were written from. */
  lemma WrittenTextParses(classes: seq<int>, tails: seq<string>)
    requires |classes| == |tails|
    requires forall i :: 0 <= i < |tails| ==> IsFieldTail(tails[i])
    ensures ParseLabelLines(ReadLines(Concat(LabelLines(classes, tails)))) == Success(classes)
  {
    var ls := LabelLines(classes, tails);
    forall i | 0 <= i < |ls|
      ensures IsLine(ls[i]) && EndsWithNewline(ls[i]) && ParseLabelLine(ls[i]) == Success(classes[i])
    {
      WrittenLineReadsBack(classes[i], tails[i]);
    }
    ReadLinesOfConcat(ls);
    ParsedLinesAre(ls, classes);
  }

  lemma ParsedLinesAre(ls: seq<string>, classes: seq<int>)
    requires |ls| == |classes|
    requires forall i :: 0 <= i < |ls| ==> ParseLabelLine(ls[i]) == Success(classes[i])
    ensures ParseLabelLines(ls) == Success(classes)
  {
    var r := ParseLabelLines(ls);
    assert r.Success?;
    var v := r.value;
    forall i | 0 <= i < |ls| ensures v[i] == classes[i] {
      var a := ParseLabelLine(ls[i]);
      assert a == Success(v[i]);
      assert a == Success(classes[i]);
    }
    assert |v| == |classes|;
    assert v == classes;
  }

  lemma WrittenLineReadsBack(c: int, tail: string)
    requires IsFieldTail(tail)
    ensures var l := IntToString(c) + tail + "\n";
      IsLine(l) && EndsWithNewline(l) && ParseLabelLine(l) == Success(c)
      && forall i :: 0 <= i < |l| ==> l[i] != '\r'
  {
    var tok := IntToString(c);
    WrittenLineShape(tok, tail);
    assert tok + tail + "\n" == tok + (tail + "\n");
    SplitFirst(tok, tail + "\n");
    ParseIntRoundTrip(c);
  }

  lemma WrittenLineShape(tok: string, tail: string)
    requires forall i :: 0 <= i < |tok| ==> tok[i] == '-' || IsDigit(tok[i])
    requires IsFieldTail(tail)
    ensures var l := tok + tail + "\n";
      IsLine(l) && EndsWithNewline(l) && forall i :: 0 <= i < |l| ==> l[i] != '\r'
  {
    var l := tok + tail + "\n";
    assert forall i :: 0 <= i < |tok| ==> l[i] == tok[i];
    assert forall i :: |tok| <= i < |tok| + |tail| ==> l[i] == tail[i - |tok|];
    assert l[|l| - 1] == '\n';
  }

  lemma {:induction false} NoCarriageReturn(ls: seq<string>)
    requires forall k :: 0 <= k < |ls| ==> forall i :: 0 <= i < |ls[k]| ==> ls[k][i] != '\r'
    ensures forall i :: 0 <= i < |Concat(ls)| ==> Concat(ls)[i] != '\r'
  {
    if |ls| > 0 {
      NoCarriageReturn(ls[1..]);
      var s := Concat(ls);
      assert s == ls[0] + Concat(ls[1..]);
      assert forall i :: |ls[0]| <= i < |s| ==> s[i] == Concat(ls[1..])[i - |ls[0]|];
    }
  }
}

=== FILE: py_base.dfy ===
/** Python runtime behaviour the detection resolver relies on: optional values,
    exceptions as values, list indexing with negative indices, and filtering a
    list in order. */
module PyBase {

  datatype Option<+T> = None | Some(value: T)

  /** The exceptions the resolver can catch, each with what `str()` of it shows. */
  datatype PyError =
    | IndexError                      // a list index out of range
    | ValueError(literal: string)     // `int()` given something that is not an integer literal
    | IsADirectoryError(path: string) // `open()` or `os.remove()` on a directory
    | DetectorError(message: string)  // whatever the external detector raised

  /** A value or the exception raised while computing it. */
  datatype Result<+T> = Success(value: T) | Failure(error: PyError)

  /** `repr()` of a string: single quotes unless the text holds a single quote
      and no double quote; backslash, the chosen quote, tab, newline and carriage
      return are escaped. */
  function Repr(s: string): (r: string)
    ensures |r| >= |s| + 2
    ensures r[0] == r[|r| - 1] && (r[0] == '\'' || r[0] == '"')
    ensures r[0] == '"' <==> '\'' in s && '"' !in s
  {
    var q := if '\'' in s && '"' !in s then '"' else '\'';
    [q] + ReprBody(s, q) + [q]
  }

  function ReprBody(s: string, q: char): (r: string)
    ensures |r| >= |s|
  {
    if |s| == 0 then ""
    else
      var c := s[0];
      var e := if c == '\\' then "\\\\"
               else if c == q then ['\\', q]
               else if c == '\t' then "\\t"
               else if c == '\n' then "\\n"
               else if c == '\r' then "\\r"
               else [c];
      e + ReprBody(s[1..], q)
  }

  /** A character `repr()` shows as itself. */
  predicate Plain(c: char)
  {
    c != '\\' && c != '\'' && c != '"' && c != '\t' && c != '\n' && c != '\r'
  }

  /** Text of plain characters is shown between single quotes, unchanged. */
  lemma {:induction false} ReprPlain(s: string)
    requires forall i :: 0 <= i < |s| ==> Plain(s[i])
    ensures Repr(s) == "'" + s + "'"
  {
    assert '\'' !in s by {
      forall i | 0 <= i < |s| ensures s[i] != '\'' {
        assert Plain(s[i]);
      }
    }
    ReprBodyPlain(s, '\'');
  }

  lemma {:induction false} ReprBodyPlain(s: string, q: char)
    requires q == '\'' || q == '"'
    requires forall i :: 0 <= i < |s| ==> Plain(s[i])
    ensures ReprBody(s, q) == s
  {
    if |s| > 0 {
      assert forall i :: 0 <= i < |s[1..]| ==> s[1..][i] == s[i + 1];
      ReprBodyPlain(s[1..], q);
      assert Plain(s[0]);
      assert [s[0]] + s[1..] == s;
    }
  }

  /** `s` cut to its first `n` characters, as a `%.200R` format does. */
  function Truncate(s: string, n: nat): (r: string)
    ensures |r| <= n && |r| <= |s| && r == s[..|r|]
    ensures |s| <= n ==> r == s
  {
    if |s| <= n then s else s[..n]
  }

  const ValueErrorPrefix: string := "invalid literal for int() with base 10: "

  /** `str(e)` for each exception the resolver stores in its result. `int()`
      formats the rejected literal with `%.200R`, so at most 200 characters
      of its `repr()` appear. */
  function Str(e: PyError): (r: string)
    ensures e.DetectorError? ==> r == e.message
    ensures !e.DetectorError? ==> |r| > 0
    ensures e.ValueError? ==> |ValueErrorPrefix| < |r| <= |ValueErrorPrefix| + 200
    ensures e.ValueError? ==> r[..|ValueErrorPrefix|] == ValueErrorPrefix
    ensures e.ValueError? && |Repr(e.literal)| <= 200 ==> r[|ValueErrorPrefix|..] == Repr(e.literal)
  {
    match e
    case IndexError => "list index out of range"
    case ValueError(lit) => ValueErrorPrefix + Truncate(Repr(lit), 200)
    case IsADirectoryError(p) => "[Errno 21] Is a directory: " + Repr(p)
    case DetectorError(m) => m
  }

  /** A long literal is cut: its message keeps only the first 200 characters
      of the literal's `repr()`, so it no longer ends with the closing quote
      of a full `repr()`. */
  lemma LongLiteralCut(lit: string)
    requires |lit| >= 200
    ensures Str(ValueError(lit)) == ValueErrorPrefix + Repr(lit)[..200]
    ensures |Str(ValueError(lit))| == |ValueErrorPrefix| + 200
  {
  }

  /** `xs[i]` on a Python list: non-negative indices count from the front,
      negative ones from the back, anything else raises `IndexError`. */
  function PyIndex<T>(xs: seq<T>, i: int): (r: Result<T>)
    ensures r.Success? <==> -|xs| <= i < |xs|
    ensures r.Failure? ==> r.error == IndexError
    ensures 0 <= i < |xs| ==> r == Success(xs[i])
  {
    if 0 <= i < |xs| then Success(xs[i])
    else if -|xs| <= i < 0 then Success(xs[|xs| + i])
    else Failure(IndexError)
  }

  /** A negative index names the same element as that index plus the length. */
  lemma PyIndexNegative<T>(xs: seq<T>, i: int)
    requires -|xs| <= i < 0
    ensures PyIndex(xs, i) == PyIndex(xs, i + |xs|)
    ensures PyIndex(xs, i).Success?
  {
  }

  /** The elements of `xs` that satisfy `keep`, in their original order. */
  function Filter<T>(xs: seq<T>, keep: T -> bool): (r: seq<T>)
    ensures |r| <= |xs|
    ensures forall j :: 0 <= j < |r| ==> keep(r[j]) && r[j] in xs
  {
    if |xs| == 0 then []
    else (if keep(xs[0]) then [xs[0]] else []) + Filter(xs[1..], keep)
  }

  /** Every kept element of the list is in the result. */
  lemma {:induction false} FilterComplete<T>(xs: seq<T>, keep: T -> bool)
    ensures forall i :: 0 <= i < |xs| && keep(xs[i]) ==> xs[i] in Filter(xs, keep)
  {
    if |xs| > 0 {
      FilterComplete(xs[1..], keep);
      var h := if keep(xs[0]) then [xs[0]] else [];
      assert Filter(xs, keep) == h + Filter(xs[1..], keep);
      forall i | 0 < i < |xs| && keep(xs[i]) ensures xs[i] in Filter(xs, keep) {
        assert xs[i] == xs[1..][i - 1];
      }
    }
  }

  lemma FilterCons<T>(x: T, xs: seq<T>, keep: T -> bool)
    ensures Filter([x] + xs, keep) == (if keep(x) then [x] else []) + Filter(xs, keep)
  {
    assert ([x] + xs)[0] == x;
    assert ([x] + xs)[1..] == xs;
  }

  /** Putting the same element in front of two lists keeps a relation
      between their filtered forms. */
  lemma FilterConsBoth<T>(y: T, a: seq<T>, b: seq<T>, keep: T -> bool, e: seq<T>)
    requires Filter(a, keep) == Filter(b, keep) + e
    ensures Filter([y] + a, keep) == Filter([y] + b, keep) + e
  {
    var h := if keep(y) then [y] else [];
    FilterCons(y, a, keep);
    FilterCons(y, b, keep);
    AppendAssoc(h, Filter(b, keep), e);
  }

  lemma AppendAssoc<T>(a: seq<T>, b: seq<T>, c: seq<T>)
    ensures a + (b + c) == (a + b) + c
  {
  }

  lemma {:induction false} FilterAppend<T>(a: seq<T>, b: seq<T>, keep: T -> bool)
    ensures Filter(a + b, keep) == Filter(a, keep) + Filter(b, keep)
  {
    if |a| == 0 {
      assert a + b == b;
    } else {
      assert (a + b)[1..] == a[1..] + b;
      FilterAppend(a[1..], b, keep);
    }
  }

  /** Filtering a list with one more element at the end. */
  lemma FilterSnoc<T>(xs: seq<T>, x: T, keep: T -> bool)
    ensures Filter(xs + [x], keep) == Filter(xs, keep) + (if keep(x) then [x] else [])
  {
    FilterAppend(xs, [x], keep);
    FilterCons(x, [], keep);
    assert [x] + [] == [x];
  }

  /** `p` occurs in `xs` before an occurrence of `q`. */
  ghost predicate Before<T>(xs: seq<T>, p: T, q: T)
  {
    exists i, j :: 0 <= i < j < |xs| && xs[i] == p && xs[j] == q
  }

  /** Filtering keeps the order of the list: an earlier element of the result
      comes earlier in the list. */
  lemma FilterKeepsOrder<T>(xs: seq<T>, keep: T -> bool, a: int, b: int)
    requires 0 <= a < b < |Filter(xs, keep)|
    ensures Before(xs, Filter(xs, keep)[a], Filter(xs, keep)[b])
  {
    var i, j := SourcePositions(xs, keep, a, b);
  }

  /** Where two elements of the result stand in the list, in the same order. */
  lemma {:induction false} SourcePositions<T>(xs: seq<T>, keep: T -> bool, a: int, b: int) returns (i: int, j: int)
    requires 0 <= a < b < |Filter(xs, keep)|
    ensures 0 <= i < j < |xs| && xs[i] == Filter(xs, keep)[a] && xs[j] == Filter(xs, keep)[b]
  {
    FilterShift(xs, keep, b);
    if keep(xs[0]) && a == 0 {
      HeadKeptFirst(xs, keep);
      var j' :| 0 <= j' < |xs[1..]| && xs[1..][j'] == Filter(xs, keep)[b];
      i, j := 0, j' + 1;
    } else {
      FilterShift(xs, keep, a);
      var off := if keep(xs[0]) then 1 else 0;
      var i', j' := SourcePositions(xs[1..], keep, a - off, b - off);
      i, j := i' + 1, j' + 1;
      assert xs[i] == xs[1..][i'] && xs[j] == xs[1..][j'];
    }
  }

  /** A kept head is the first element of the result. */
  lemma HeadKeptFirst<T>(xs: seq<T>, keep: T -> bool)
    requires |xs| > 0 && keep(xs[0])
    ensures |Filter(xs, keep)| > 0 && Filter(xs, keep)[0] == xs[0]
  {
  }

  /** Past the head, the result is the result for the tail, shifted by one
      when the head is kept. */
  lemma FilterShift<T>(xs: seq<T>, keep: T -> bool, a: int)
    requires 0 <= a < |Filter(xs, keep)|
    requires keep(xs[0]) ==> a > 0
    ensures var off := if keep(xs[0]) then 1 else 0;
      0 <= a - off < |Filter(xs[1..], keep)| && Filter(xs, keep)[a] == Filter(xs[1..], keep)[a - off]
      && Filter(xs, keep)[a] in xs[1..]
  {
    var h := if keep(xs[0]) then [xs[0]] else [];
    var rt := Filter(xs[1..], keep);
    assert Filter(xs, keep) == h + rt;
    assert (h + rt)[a] == rt[a - |h|];
  }

  /** The tail's result sits at the end of the list's result. */
  lemma FilterIndexTail<T>(xs: seq<T>, keep: T -> bool, k: int)
    requires |xs| > 0 && 0 <= k < |Filter(xs[1..], keep)|
    ensures var off := if keep(xs[0]) then 1 else 0;
      off + k < |Filter(xs, keep)| && Filter(xs, keep)[off + k] == Filter(xs[1..], keep)[k]
  {
    var h: seq<T> := if keep(xs[0]) then [xs[0]] else [];
    var rt := Filter(xs[1..], keep);
    FilterUnfold(xs, keep);
    assert |h| == if keep(xs[0]) then 1 else 0;
    AppendIndex(h, rt, k);
  }

  lemma FilterUnfold<T>(xs: seq<T>, keep: T -> bool)
    requires |xs| > 0
    ensures Filter(xs, keep) == (if keep(xs[0]) then [xs[0]] else []) + Filter(xs[1..], keep)
  {
  }

  lemma AppendIndex<T>(h: seq<T>, t: seq<T>, k: int)
    requires 0 <= k < |t|
    ensures |h| + k < |h + t| && (h + t)[|h| + k] == t[k]
  {
  }

  /** Two kept elements of the list appear in the result in the same order. */
  lemma FilterFollowsOrder<T>(xs: seq<T>, keep: T -> bool, i: int, j: int)
    requires 0 <= i < j < |xs| && keep(xs[i]) && keep(xs[j])
    ensures Before(Filter(xs, keep), xs[i], xs[j])
  {
    var a, b := ResultPositions(xs, keep, i, j);
  }

  /** Where two kept elements of the list stand in the result, in the same order. */
  lemma {:induction false} ResultPositions<T>(xs: seq<T>, keep: T -> bool, i: int, j: int) returns (a: int, b: int)
    requires 0 <= i < j < |xs| && keep(xs[i]) && keep(xs[j])
    ensures 0 <= a < b < |Filter(xs, keep)| && Filter(xs, keep)[a] == xs[i] && Filter(xs, keep)[b] == xs[j]
  {
    var t := xs[1..];
    assert t[j - 1] == xs[j];
    if i == 0 {
      FilterComplete(t, keep);
      var rt := Filter(t, keep);
      assert xs[j] in rt;
      var b' :| 0 <= b' < |rt| && rt[b'] == xs[j];
      HeadKeptFirst(xs, keep);
      FilterIndexTail(xs, keep, b');
      a, b := 0, b' + 1;
    } else {
      assert t[i - 1] == xs[i];
      var a', b' := ResultPositions(t, keep, i - 1, j - 1);
      FilterIndexTail(xs, keep, a');
      FilterIndexTail(xs, keep, b');
      var off := if keep(xs[0]) then 1 else 0;
      a, b := a' + off, b' + off;
    }
  }

  ghost predicate Distinct<T>(xs: seq<T>)
  {
    forall i, j :: 0 <= i < j < |xs| ==> xs[i] != xs[j]
  }

  /** Filtering a list without repetitions gives a list without repetitions. */
  lemma {:induction false} FilterDistinct<T>(xs: seq<T>, keep: T -> bool)
    ensures Distinct(xs) ==> Distinct(Filter(xs, keep))
  {
    if |xs| > 0 && Distinct(xs) {
      FilterDistinct(xs[1..], keep);
      var rest := Filter(xs[1..], keep);
      assert xs[0] !in xs[1..] by {
        forall j | 0 <= j < |xs[1..]| ensures xs[1..][j] != xs[0] {
          assert xs[1..][j] == xs[j + 1];
        }
      }
      assert xs[0] !in rest;
    }
  }

  /** In a list without repetitions, "comes before" is a strict order. */
  lemma BeforeAsymmetric<T>(xs: seq<T>, p: T, q: T)
    requires Distinct(xs) && Before(xs, p, q)
    ensures p != q && !Before(xs, q, p)
  {
    var i, j :| 0 <= i < j < |xs| && xs[i] == p && xs[j] == q;
  }
}

=== FILE: py_path.dfy ===
/** The POSIX path helpers the resolver uses to derive its output paths:
    `os.path.basename`, `os.path.join` and `os.path.splitext`, on plain strings
    with `/` as the only separator and `.` as the extension separator. */
module PyPath {

  /** The index of the last `c` in `s`, or -1 when `c` does not occur (`str.rfind`). */
  function RFind(s: string, c: char): (r: int)
    ensures -1 <= r < |s|
    ensures r >= 0 ==> s[r] == c
    ensures forall i :: r < i < |s| ==> s[i] != c
  {
    if |s| == 0 then -1
    else if s[|s| - 1] == c then |s| - 1
    else RFind(s[..|s| - 1], c)
  }

  predicate NoSlash(s: string)
  {
    forall i :: 0 <= i < |s| ==> s[i] != '/'
  }

  /** `os.path.basename(p)`: what follows the last `/`. The result is a suffix
      of `p` without a `/`, and it is all of `p` or preceded by a `/`. */
  function Basename(p: string): (r: string)
    ensures NoSlash(r)
    ensures |r| <= |p| && p[|p| - |r|..] == r
    ensures |r| < |p| ==> p[|p| - |r| - 1] == '/'
  {
    p[RFind(p, '/') + 1..]
  }

  /** `os.path.join(a, b)`: an absolute `b` replaces `a`; otherwise `b` is
      appended, with a `/` between unless `a` is empty or already ends in one. */
  function Join(a: string, b: string): (r: string)
    ensures |b| > 0 && b[0] == '/' ==> r == b
    ensures |b| == 0 || b[0] != '/' ==> |r| >= |a| + |b| && r[|r| - |b|..] == b && r[..|a|] == a
  {
    if |b| > 0 && b[0] == '/' then b
    else if |a| == 0 || a[|a| - 1] == '/' then a + b
    else a + "/" + b
  }

  /** Joining a directory and a plain name gives back the name as the basename. */
  lemma BasenameOfJoin(dir: string, name: string)
    requires |name| > 0 && NoSlash(name)
    ensures Basename(Join(dir, name)) == name
  {
    var p := Join(dir, name);
    assert p[|p| - |name|..] == name;
    assert forall i :: |p| - |name| <= i < |p| ==> p[i] == name[i - (|p| - |name|)];
    assert |p| == |name| || p[|p| - |name| - 1] == '/';
  }

  /** Some character of `p[lo..hi]` is not a dot. */
  predicate HasNonDot(p: string, lo: int, hi: int)
    requires 0 <= lo <= hi <= |p|
  {
    exists i :: lo <= i < hi && p[i] != '.'
  }

  /** `os.path.splitext(p)`: the extension runs from the last dot of the final
      component to the end, provided that dot is not among the component's
      leading dots; otherwise there is no extension. */
  function SplitExt(p: string): (r: (string, string))
    ensures r.0 + r.1 == p
    ensures |r.1| == 0 || (r.1[0] == '.' && forall i :: 1 <= i < |r.1| ==> r.1[i] != '.' && r.1[i] != '/')
  {
    var sep := RFind(p, '/');
    var dot := RFind(p, '.');
    if dot > sep && HasNonDot(p, sep + 1, dot) then
      ExtensionShape(p, sep, dot);
      (p[..dot], p[dot..])
    else
      assert p + "" == p;
      (p, "")
  }

  /** Cutting before the last dot after the last slash gives an extension of
      one dot and no further dot or slash. */
  lemma ExtensionShape(p: string, sep: int, dot: int)
    requires -1 <= sep < dot < |p| && p[dot] == '.'
    requires forall i :: dot < i < |p| ==> p[i] != '.'
    requires forall i :: sep < i < |p| ==> p[i] != '/'
    ensures p[..dot] + p[dot..] == p
    ensures var e := p[dot..]; e[0] == '.' && forall i :: 1 <= i < |e| ==> e[i] != '.' && e[i] != '/'
  {
    var e := p[dot..];
    assert forall i :: 1 <= i < |e| ==> e[i] == p[dot + i];
  }

  /** The stem `os.path.splitext(name)[0]`. */
  function Stem(name: string): string
  {
    SplitExt(name).0
  }

  /** A name without dots followed by one extension splits back into the two,
      as with the temporary file's `tmpXXXXXXXX.jpg`. */
  lemma StemOfDottedName(stem: string, ext: string)
    requires |stem| > 0 && forall i :: 0 <= i < |stem| ==> stem[i] != '.' && stem[i] != '/'
    requires |ext| > 0 && ext[0] == '.' && forall i :: 1 <= i < |ext| ==> ext[i] != '.' && ext[i] != '/'
    ensures SplitExt(stem + ext) == (stem, ext)
  {
    var p := stem + ext;
    assert p[|stem|] == '.';
    assert forall i :: |stem| < i < |p| ==> p[i] == ext[i - |stem|];
    assert forall i :: 0 <= i < |stem| ==> p[i] == stem[i];
    assert RFind(p, '.') == |stem|;
    assert RFind(p, '/') == -1;
    assert HasNonDot(p, 0, |stem|) by { assert p[0] != '.'; }
    assert p[..|stem|] == stem && p[|stem|..] == ext;
  }
}

=== FILE: py_text.dfy ===
/** The Python text operations the label reader is built from: `str.split()`
    with no separator, `int()` on a token, `str()` of an integer, and reading
    a text file line by line in universal-newlines mode. */
module PyText {
  import opened PyBase

  /** `str.isspace()` for one character: the characters `str.split()` with no
      argument separates on. */
  predicate IsSpace(c: char)
  {
    || '\t' <= c <= '\r'
    || '\U{1C}' <= c <= ' '
    || c == '\U{85}' || c == '\U{A0}' || c == '\U{1680}'
    || '\U{2000}' <= c <= '\U{200A}'
    || c == '\U{2028}' || c == '\U{2029}' || c == '\U{202F}' || c == '\U{205F}'
    || c == '\U{3000}'
  }

  predicate AllSpace(s: string)
  {
    forall i :: 0 <= i < |s| ==> IsSpace(s[i])
  }

  /** A word `str.split()` can produce: non-empty, no whitespace in it. */
  predicate IsToken(w: string)
  {
    |w| > 0 && forall i :: 0 <= i < |w| ==> !IsSpace(w[i])
  }

  /** `s` with its leading whitespace removed. */
  function TrimLeft(s: string): (r: string)
    ensures |r| <= |s| && r == s[|s| - |r|..]
    ensures AllSpace(s[..|s| - |r|])
    ensures |r| == 0 || !IsSpace(r[0])
  {
    if |s| == 0 || !IsSpace(s[0]) then
      NoSpaceRun(s);
      s
    else
      var t := TrimLeft(s[1..]);
      TrimLeftStep(s, t);
      t
  }

  /** Trimming a text that starts with whitespace trims its tail. */
  lemma TrimLeftStep(s: string, t: string)
    requires |s| > 0 && IsSpace(s[0])
    requires |t| <= |s| - 1 && t == s[1..][|s| - 1 - |t|..] && AllSpace(s[1..][..|s| - 1 - |t|])
    ensures |t| <= |s| && t == s[|s| - |t|..] && AllSpace(s[..|s| - |t|])
  {
    SpaceRunStep(s, |s| - |t|);
  }

  /** The empty run of whitespace in front of `s`. */
  lemma NoSpaceRun(s: string)
    ensures AllSpace(s[..0]) && s[0..] == s
  {
    assert s[..0] == [];
  }

  /** A whitespace character before a run of whitespace extends the run. */
  lemma SpaceRunStep(s: string, k: int)
    requires 0 < k <= |s| && IsSpace(s[0]) && AllSpace(s[1..][..k - 1])
    ensures AllSpace(s[..k]) && s[k..] == s[1..][k - 1..]
  {
    forall i | 0 < i < k ensures IsSpace(s[i]) {
      assert s[i] == s[1..][..k - 1][i - 1];
    }
  }

  /** The length of the run of non-whitespace characters `t` starts with. */
  function TokenLength(t: string): (n: nat)
    ensures n <= |t|
    ensures forall i :: 0 <= i < n ==> !IsSpace(t[i])
    ensures n == |t| || IsSpace(t[n])
  {
    if |t| == 0 || IsSpace(t[0]) then 0 else 1 + TokenLength(t[1..])
  }

  /** `s.split()`: the maximal runs of non-whitespace characters, in order. */
  function Split(s: string): (r: seq<string>)
    ensures forall k :: 0 <= k < |r| ==> IsToken(r[k])
    ensures |r| == 0 <==> AllSpace(s)
    decreases |s|
  {
    var t := TrimLeft(s);
    if |t| == 0 then
      AllSpaceWhenTrimmedEmpty(s);
      []
    else
      var n := TokenLength(t);
      LeadingWordIsToken(s, t, n);
      var rest := Split(t[n..]);
      ConsTokens(t[..n], rest);
      [t[..n]] + rest
  }

  /** Leading whitespace does not change the trimmed text. */
  lemma {:induction false} TrimLeftSpace(ws: string, s: string)
    requires AllSpace(ws)
    ensures TrimLeft(ws + s) == TrimLeft(s)
  {
    if |ws| > 0 {
      assert (ws + s)[0] == ws[0] && IsSpace(ws[0]);
      assert (ws + s)[1..] == ws[1..] + s;
      TrimLeftSpace(ws[1..], s);
    } else {
      assert ws + s == s;
    }
  }

  /** Whitespace before the first field produces no field: `(ws + s).split() == s.split()`. */
  lemma SplitLeadingSpace(ws: string, s: string)
    requires AllSpace(ws)
    ensures Split(ws + s) == Split(s)
  {
    TrimLeftSpace(ws, s);
  }

  lemma ConsTokens(w: string, rest: seq<string>)
    requires IsToken(w) && forall k :: 0 <= k < |rest| ==> IsToken(rest[k])
    ensures forall k :: 0 <= k < |[w] + rest| ==> IsToken(([w] + rest)[k])
  {
    forall k | 0 < k < |[w] + rest| ensures IsToken(([w] + rest)[k]) {
      assert ([w] + rest)[k] == rest[k - 1];
    }
  }

  lemma AllSpaceWhenTrimmedEmpty(s: string)
    requires |TrimLeft(s)| == 0
    ensures AllSpace(s)
  {
    assert s[..|s|] == s;
  }

  lemma LeadingWordIsToken(s: string, t: string, n: nat)
    requires t == TrimLeft(s) && |t| > 0 && n == TokenLength(t)
    ensures 0 < n <= |t|
    ensures IsToken(t[..n])
    ensures !AllSpace(s)
  {
    assert s[|s| - |t|] == t[0];
    forall i | 0 <= i < n ensures !IsSpace(t[..n][i]) {
      assert t[..n][i] == t[i];
    }
  }

  /** The first word of a token followed by nothing or by whitespace is that token:
      `(tok + rest).split()[0] == tok`. */
  lemma SplitFirst(tok: string, rest: string)
    requires IsToken(tok)
    requires |rest| == 0 || IsSpace(rest[0])
    ensures |Split(tok + rest)| > 0 && Split(tok + rest)[0] == tok
  {
    var s := tok + rest;
    assert s[0] == tok[0];
    assert TrimLeft(s) == s;
    TokenLengthOf(tok, rest);
    assert s[..|tok|] == tok;
  }

  lemma {:induction false} TokenLengthOf(tok: string, rest: string)
    requires forall i :: 0 <= i < |tok| ==> !IsSpace(tok[i])
    requires |rest| == 0 || IsSpace(rest[0])
    ensures TokenLength(tok + rest) == |tok|
  {
    if |tok| > 0 {
      assert (tok + rest)[0] == tok[0];
      assert (tok + rest)[1..] == tok[1..] + rest;
      TokenLengthOf(tok[1..], rest);
    } else {
      assert tok + rest == rest;
    }
  }

  predicate IsDigit(c: char)
  {
    '0' <= c <= '9'
  }

  function DigitValue(c: char): nat
    requires IsDigit(c)
  {
    c as int - '0' as int
  }

  function DigitChar(d: nat): (c: char)
    requires d < 10
    ensures IsDigit(c) && DigitValue(c) == d
  {
    ('0' as int + d) as char
  }

  /** The body `int()` accepts after an optional sign: decimal digits, starting
      and ending with a digit, each underscore standing between two digits. */
  predicate IsDigitGroup(s: string)
  {
    && |s| > 0
    && IsDigit(s[0])
    && IsDigit(s[|s| - 1])
    && forall i :: 0 < i < |s| - 1 && !IsDigit(s[i]) ==> s[i] == '_' && IsDigit(s[i - 1]) && IsDigit(s[i + 1])
  }

  /** The number the digits of `s` spell, underscores ignored. */
  function DigitsValue(s: string): nat
  {
    if |s| == 0 then 0
    else if IsDigit(s[|s| - 1]) then DigitsValue(s[..|s| - 1]) * 10 + DigitValue(s[|s| - 1])
    else DigitsValue(s[..|s| - 1])
  }

  /** What `int()` accepts, character by character: digits, a sign only in
      front, an underscore only between two digits, and a digit last. */
  predicate IsIntLiteral(tok: string)
  {
    && |tok| > 0
    && IsDigit(tok[|tok| - 1])
    && forall i :: 0 <= i < |tok| ==> LiteralChar(tok, i)
  }

  /** Character `i` of an integer literal: a digit, a leading sign, or an
      underscore between two digits. */
  predicate LiteralChar(tok: string, i: int)
    requires 0 <= i < |tok|
  {
    || IsDigit(tok[i])
    || (i == 0 && (tok[i] == '+' || tok[i] == '-'))
    || (tok[i] == '_' && 0 < i < |tok| - 1 && IsDigit(tok[i - 1]) && IsDigit(tok[i + 1]))
  }

  /** The sign-then-digit-group reading of a token agrees with the
      character-by-character one. */
  lemma IntLiteralBody(tok: string)
    ensures var signed := |tok| > 0 && (tok[0] == '+' || tok[0] == '-');
      IsIntLiteral(tok) <==> IsDigitGroup(if signed then tok[1..] else tok)
  {
    if |tok| > 0 && (tok[0] == '+' || tok[0] == '-') {
      var body := tok[1..];
      if IsIntLiteral(tok) {
        assert |tok| > 1 && LiteralChar(tok, 1) && body[0] == tok[1];
        forall j | 0 < j < |body| - 1 && !IsDigit(body[j])
          ensures body[j] == '_' && IsDigit(body[j - 1]) && IsDigit(body[j + 1])
        {
          assert LiteralChar(tok, j + 1);
          assert body[j] == tok[j + 1] && body[j - 1] == tok[j] && body[j + 1] == tok[j + 2];
        }
      }
      if IsDigitGroup(body) {
        forall i | 0 <= i < |tok| ensures LiteralChar(tok, i) {
          if i > 0 {
            assert tok[i] == body[i - 1];
            if !IsDigit(body[i - 1]) {
              assert 0 < i - 1 < |body| - 1;
              assert tok[i - 1] == body[i - 2] && tok[i + 1] == body[i];
            }
          }
        }
      }
    } else if |tok| > 0 {
      if IsIntLiteral(tok) {
        assert LiteralChar(tok, 0);
        forall j | 0 < j < |tok| - 1 && !IsDigit(tok[j])
          ensures tok[j] == '_' && IsDigit(tok[j - 1]) && IsDigit(tok[j + 1])
        {
          assert LiteralChar(tok, j);
        }
      }
      if IsDigitGroup(tok) {
        forall i | 0 <= i < |tok| ensures LiteralChar(tok, i) {
        }
      }
    }
  }

  /** `int(tok)` in base 10 on a token without surrounding whitespace: an
      optional sign, then a digit group; anything else raises `ValueError`. */
  function ParseInt(tok: string): (r: Result<int>)
    ensures r.Success? <==> IsIntLiteral(tok)
    ensures r.Failure? ==> r.error == ValueError(tok)
    ensures r.Success? ==> |tok| > 0 && (IsDigit(tok[0]) || tok[0] == '+' || tok[0] == '-')
    ensures r.Success? && r.value < 0 ==> tok[0] == '-'
  {
    var signed := |tok| > 0 && (tok[0] == '+' || tok[0] == '-');
    var body := if signed then tok[1..] else tok;
    IntLiteralBody(tok);
    if !IsDigitGroup(body) then Failure(ValueError(tok))
    else if tok[0] == '-' then Success(-(DigitsValue(body) as int))
    else Success(DigitsValue(body))
  }

  /** A digit group on its own is read as the number its digits spell. */
  lemma ParseIntGroup(d: string)
    requires IsDigitGroup(d)
    ensures ParseInt(d) == Success(DigitsValue(d))
  {
    assert d[0] != '+' && d[0] != '-';
  }

  /** A leading `+` does not change the value: `int("+" + d) == int(d)`. */
  lemma ParseIntPlus(d: string)
    requires IsDigitGroup(d)
    ensures ParseInt("+" + d) == ParseInt(d) == Success(DigitsValue(d))
  {
    var tok := "+" + d;
    assert tok[0] == '+' && tok[1..] == d;
    ParseIntGroup(d);
  }

  /** A leading `-` negates the value: `int("-" + d) == -int(d)`. */
  lemma ParseIntMinus(d: string)
    requires IsDigitGroup(d)
    ensures ParseInt("-" + d) == Success(-(DigitsValue(d) as int)) && ParseInt(d) == Success(DigitsValue(d))
  {
    var tok := "-" + d;
    assert tok[0] == '-' && tok[1..] == d;
    ParseIntNegative(tok);
    ParseIntGroup(d);
  }

  lemma ParseIntNegative(tok: string)
    requires |tok| > 0 && tok[0] == '-' && IsDigitGroup(tok[1..])
    ensures ParseInt(tok) == Success(-(DigitsValue(tok[1..]) as int))
  {
  }

  /** An underscore between two digit groups does not change the value:
      `int(a + "_" + b) == int(a + b)`. */
  lemma ParseIntUnderscore(a: string, b: string)
    requires IsDigitGroup(a) && IsDigitGroup(b)
    ensures ParseInt(a + "_" + b) == ParseInt(a + b) == Success(DigitsValue(a + b))
  {
    GroupsJoinedByUnderscore(a, b);
    GroupsJoined(a, b);
    DigitsValueSkipsUnderscore(a, b);
  }

  lemma GroupsJoinedByUnderscore(a: string, b: string)
    requires IsDigitGroup(a) && IsDigitGroup(b)
    ensures IsDigitGroup(a + "_" + b)
  {
    var u := a + "_" + b;
    assert u[0] == a[0];
    assert u[|u| - 1] == b[|b| - 1];
    forall i | 0 < i < |u| - 1 && !IsDigit(u[i])
      ensures u[i] == '_' && IsDigit(u[i - 1]) && IsDigit(u[i + 1])
    {
      if i < |a| {
        assert u[i - 1] == a[i - 1] && u[i] == a[i] && u[i + 1] == a[i + 1];
      } else if i > |a| {
        assert u[i] == b[i - |a| - 1] && u[i + 1] == b[i - |a|];
        if i - 1 > |a| {
          assert u[i - 1] == b[i - |a| - 2];
        }
      }
    }
  }

  lemma GroupsJoined(a: string, b: string)
    requires IsDigitGroup(a) && IsDigitGroup(b)
    ensures IsDigitGroup(a + b)
  {
    var v := a + b;
    assert v[0] == a[0];
    assert v[|v| - 1] == b[|b| - 1];
    forall i | 0 < i < |v| - 1 && !IsDigit(v[i])
      ensures v[i] == '_' && IsDigit(v[i - 1]) && IsDigit(v[i + 1])
    {
      if i < |a| - 1 {
        assert v[i - 1] == a[i - 1] && v[i] == a[i] && v[i + 1] == a[i + 1];
      } else if i > |a| {
        assert v[i - 1] == b[i - |a| - 1] && v[i] == b[i - |a|] && v[i + 1] == b[i - |a| + 1];
      }
    }
  }

  /** `DigitsValue` ignores an underscore wherever it stands. */
  lemma {:induction false} DigitsValueSkipsUnderscore(a: string, b: string)
    ensures DigitsValue(a + "_" + b) == DigitsValue(a + b)
  {
    if |b| == 0 {
      assert a + "_" + b == a + "_" && (a + "_")[..|a|] == a;
      assert a + b == a;
    } else {
      var b' := b[..|b| - 1];
      DigitsValueSkipsUnderscore(a, b');
      assert (a + "_" + b)[..|a + "_" + b| - 1] == a + "_" + b';
      assert (a + b)[..|a + b| - 1] == a + b';
    }
  }

  /** A decimal point, a doubled underscore or a trailing underscore makes
      `int()` raise: `int("3.0")`, `int("1__0")` and `int("7_")` all fail. */
  lemma ParseIntRejectsExamples()
    ensures ParseInt("3.0") == Failure(ValueError("3.0"))
    ensures ParseInt("1__0") == Failure(ValueError("1__0"))
    ensures ParseInt("7_") == Failure(ValueError("7_"))
  {
    assert !LiteralChar("3.0", 1);
    assert !LiteralChar("1__0", 1);
    assert !IsDigit("7_"[1]);
  }

  /** `str(n)` for a non-negative integer: its decimal digits, no leading zero. */
  function NatToString(n: nat): (s: string)
    ensures |s| > 0 && forall i :: 0 <= i < |s| ==> IsDigit(s[i])
    ensures n > 0 ==> s[0] != '0'
  {
    if n < 10 then [DigitChar(n)] else NatToString(n / 10) + [DigitChar(n % 10)]
  }

  /** `str(n)` for any integer. */
  function IntToString(n: int): (s: string)
    ensures IsToken(s)
    ensures forall i :: 0 <= i < |s| ==> s[i] == '-' || IsDigit(s[i])
  {
    if n < 0 then "-" + NatToString(-n) else NatToString(n)
  }

  lemma {:induction false} NatToStringValue(n: nat)
    ensures DigitsValue(NatToString(n)) == n
  {
    var s := NatToString(n);
    if n < 10 {
      assert s[..0] == [];
    } else {
      NatToStringValue(n / 10);
      assert s[..|s| - 1] == NatToString(n / 10);
    }
  }

  /** Reading back what `str()` wrote gives the number: `int(str(n)) == n`. */
  lemma ParseIntRoundTrip(n: int)
    ensures ParseInt(IntToString(n)) == Success(n)
  {
    var m: nat := if n < 0 then -n else n;
    var digits := NatToString(m);
    NatToStringValue(m);
    if n < 0 {
      ParseIntSigned(digits);
    } else {
      ParseIntUnsigned(digits);
    }
  }

  lemma ParseIntUnsigned(digits: string)
    requires |digits| > 0 && forall i :: 0 <= i < |digits| ==> IsDigit(digits[i])
    ensures ParseInt(digits) == Success(DigitsValue(digits))
  {
    assert IsDigitGroup(digits);
  }

  lemma ParseIntSigned(digits: string)
    requires |digits| > 0 && forall i :: 0 <= i < |digits| ==> IsDigit(digits[i])
    ensures ParseInt("-" + digits) == Success(-(DigitsValue(digits) as int))
  {
    var tok := "-" + digits;
    assert tok[0] == '-' && tok[1..] == digits;
    assert IsDigitGroup(digits);
  }

  /** Universal newlines: `\r\n` and a lone `\r` both become `\n`. */
  function TranslateNewlines(s: string): (r: string)
    ensures forall i :: 0 <= i < |r| ==> r[i] != '\r'
    ensures |r| <= |s|
    ensures |r| == 0 <==> |s| == 0
  {
    if |s| == 0 then ""
    else if s[0] == '\r' then
      "\n" + TranslateNewlines(if |s| > 1 && s[1] == '\n' then s[2..] else s[1..])
    else [s[0]] + TranslateNewlines(s[1..])
  }

  /** Text without carriage returns reads back unchanged. */
  lemma {:induction false} TranslateNewlinesNoCr(s: string)
    requires forall i :: 0 <= i < |s| ==> s[i] != '\r'
    ensures TranslateNewlines(s) == s
  {
    if |s| > 0 {
      TranslateNewlinesNoCr(s[1..]);
    }
  }

  /** Text without carriage returns passes through unchanged ahead of the rest. */
  lemma {:induction false} TranslateNewlinesPlainPrefix(a: string, rest: string)
    requires forall i :: 0 <= i < |a| ==> a[i] != '\r'
    ensures TranslateNewlines(a + rest) == a + TranslateNewlines(rest)
  {
    if |a| > 0 {
      var s := a + rest;
      assert s[0] == a[0];
      assert s[1..] == a[1..] + rest;
      TranslateNewlinesPlainPrefix(a[1..], rest);
      assert [a[0]] + (a[1..] + TranslateNewlines(rest)) == a + TranslateNewlines(rest);
    } else {
      assert a + rest == rest;
    }
  }

  /** The three line endings universal newlines recognise. */
  predicate LineEnding(eol: string)
  {
    eol == "\n" || eol == "\r\n" || eol == "\r"
  }

  /** Any line ending reads as one `\n`. A lone `\r` does so only when the text
      after it does not start with `\n`, since the two together are one `\r\n`. */
  lemma TranslateNewlinesEnding(eol: string, rest: string)
    requires LineEnding(eol)
    requires eol == "\r" ==> |rest| == 0 || rest[0] != '\n'
    ensures TranslateNewlines(eol + rest) == "\n" + TranslateNewlines(rest)
  {
    var s := eol + rest;
    if eol == "\r\n" {
      assert s[0] == '\r' && s[1] == '\n' && s[2..] == rest;
    } else if eol == "\r" {
      assert s[0] == '\r' && s[1..] == rest;
    } else {
      assert s[0] == '\n' && s[1..] == rest;
    }
  }

  /** Each line body followed by `eol`. */
  function WithEnding(bodies: seq<string>, eol: string): (ls: seq<string>)
    ensures |ls| == |bodies|
    ensures forall k :: 0 <= k < |ls| ==> ls[k] == bodies[k] + eol
  {
    seq(|bodies|, k requires 0 <= k < |bodies| => bodies[k] + eol)
  }

  /** A line without its ending: no `\r` and no `\n` in it. */
  predicate IsLineBody(b: string)
  {
    forall i :: 0 <= i < |b| ==> b[i] != '\r' && b[i] != '\n'
  }

  lemma ConcatWithEnding(bodies: seq<string>, eol: string)
    requires |bodies| > 0
    ensures Concat(WithEnding(bodies, eol))
      == bodies[0] + (eol + Concat(WithEnding(bodies[1..], eol)))
  {
    var ls := WithEnding(bodies, eol);
    assert ls[1..] == WithEnding(bodies[1..], eol);
    assert (bodies[0] + eol) + Concat(ls[1..]) == bodies[0] + (eol + Concat(ls[1..]));
  }

  /** Text made of line bodies and endings does not start with `\n` when its
      first body is non-empty or its ending is not `\n`. */
  lemma FirstCharOfLines(bodies: seq<string>, eol: string)
    requires LineEnding(eol) && eol != "\n"
    requires forall k :: 0 <= k < |bodies| ==> IsLineBody(bodies[k])
    ensures var t := Concat(WithEnding(bodies, eol)); |t| == 0 || t[0] != '\n'
  {
    if |bodies| > 0 {
      ConcatWithEnding(bodies, eol);
      assert IsLineBody(bodies[0]);
    }
  }

  /** A text written with `\r\n` or `\r` line endings reads as the same lines
      written with `\n`. */
  lemma {:induction false} TranslateLineEndings(bodies: seq<string>, eol: string)
    requires LineEnding(eol)
    requires forall k :: 0 <= k < |bodies| ==> IsLineBody(bodies[k])
    ensures TranslateNewlines(Concat(WithEnding(bodies, eol))) == Concat(WithEnding(bodies, "\n"))
  {
    if |bodies| > 0 {
      var b := bodies[0];
      var tail := bodies[1..];
      var rest := Concat(WithEnding(tail, eol));
      ConcatWithEnding(bodies, eol);
      ConcatWithEnding(bodies, "\n");
      assert IsLineBody(b);
      TranslateNewlinesPlainPrefix(b, eol + rest);
      if eol != "\n" {
        FirstCharOfLines(tail, eol);
      }
      TranslateNewlinesEnding(eol, rest);
      TranslateLineEndings(tail, eol);
    } else {
      assert WithEnding(bodies, eol) == [] && WithEnding(bodies, "\n") == [];
    }
  }

  /** The index of the first `\n` in `s`, or `|s|` when there is none. */
  function NewlineIndex(s: string): (i: nat)
    ensures i <= |s|
    ensures forall j :: 0 <= j < i ==> s[j] != '\n'
    ensures i == |s| || s[i] == '\n'
  {
    if |s| == 0 || s[0] == '\n' then 0 else 1 + NewlineIndex(s[1..])
  }

  /** A line as `readlines()` returns it: non-empty, a `\n` only at its end. */
  predicate IsLine(l: string)
  {
    |l| > 0 && forall i :: 0 <= i < |l| - 1 ==> l[i] != '\n'
  }

  predicate EndsWithNewline(l: string)
  {
    |l| > 0 && l[|l| - 1] == '\n'
  }

  function Concat(ls: seq<string>): string
  {
    if |ls| == 0 then "" else ls[0] + Concat(ls[1..])
  }

  /** `f.readlines()` on text already in universal-newline form: the text cut
      after every `\n`, each piece keeping its `\n`. The pieces put back
      together are the text, and only the last may lack a `\n`. */
  function ReadLines(s: string): (r: seq<string>)
    ensures Concat(r) == s
    ensures forall k :: 0 <= k < |r| ==> IsLine(r[k])
    ensures forall k :: 0 <= k < |r| - 1 ==> EndsWithNewline(r[k])
    decreases |s|
  {
    if |s| == 0 then []
    else
      var i := NewlineIndex(s);
      if i == |s| then
        assert Concat([s]) == s + "";
        [s]
      else
        var rest := ReadLines(s[i + 1..]);
        assert s == s[..i + 1] + s[i + 1..];
        assert Concat([s[..i + 1]] + rest) == s[..i + 1] + Concat(rest) by {
          assert ([s[..i + 1]] + rest)[1..] == rest;
        }
        [s[..i + 1]] + rest
  }

  /** Lines written one after another, each ending in its only `\n`, are read
      back as the same lines. */
  lemma {:induction false} ReadLinesOfConcat(ls: seq<string>)
    requires forall k :: 0 <= k < |ls| ==> IsLine(ls[k]) && EndsWithNewline(ls[k])
    ensures ReadLines(Concat(ls)) == ls
  {
    if |ls| > 0 {
      var l := ls[0];
      var s := Concat(ls);
      assert s == l + Concat(ls[1..]);
      NewlineIndexOfLine(l, Concat(ls[1..]));
      assert s[..|l|] == l;
      assert s[|l|..] == Concat(ls[1..]);
      ReadLinesOfConcat(ls[1..]);
    }
  }

  lemma NewlineIndexOfLine(l: string, rest: string)
    requires IsLine(l) && EndsWithNewline(l)
    ensures NewlineIndex(l + rest) == |l| - 1
  {
    var s := l + rest;
    assert s[|l| - 1] == '\n';
    assert forall j :: 0 <= j < |l| - 1 ==> s[j] == l[j];
  }
}

=== FILE: runs.dfy ===
/** Choosing the detector's most recent run directory: every entry matching
    `yolov5/runs/detect/exp*`, sorted by modification time with a stable sort,
    and the last one taken. */
module Runs {
  import opened PyBase
  import opened Files

  /** Where the detector writes its runs, and the name every run starts with. */
  const RunRoot: string := "yolov5/runs/detect"
  const RunPrefix: string := "exp"

  /** A glob match and its modification time. */
  datatype Run = Run(path: string, mtime: int)

  ghost predicate SortedByMtime(rs: seq<Run>)
  {
    forall i, j :: 0 <= i < j < |rs| ==> rs[i].mtime <= rs[j].mtime
  }

  function HasMtime(m: int): Run -> bool
  {
    (r: Run) => r.mtime == m
  }

  /** One step of a stable insertion sort: `x` goes after every element whose
      time is not later than its own. */
  function Insert(t: seq<Run>, x: Run): (r: seq<Run>)
    ensures |r| == |t| + 1
  {
    if |t| == 0 then [x]
    else if t[0].mtime > x.mtime then [x] + t
    else
      assert t == [t[0]] + t[1..];
      [t[0]] + Insert(t[1..], x)
  }

  lemma {:induction false} InsertSorted(t: seq<Run>, x: Run)
    requires SortedByMtime(t)
    ensures SortedByMtime(Insert(t, x))
  {
    if |t| > 0 && t[0].mtime <= x.mtime {
      var tail := t[1..];
      assert SortedByMtime(tail);
      InsertSorted(tail, x);
      var rest := Insert(tail, x);
      InsertLowerBound(tail, x, t[0].mtime);
      var r := [t[0]] + rest;
      assert forall k :: 1 <= k < |r| ==> r[k] == rest[k - 1];
    }
  }

  /** A time no later than `x` and every element of `t` stays below the insertion. */
  lemma {:induction false} InsertLowerBound(t: seq<Run>, x: Run, lb: int)
    requires lb <= x.mtime && forall k :: 0 <= k < |t| ==> lb <= t[k].mtime
    ensures forall k :: 0 <= k < |Insert(t, x)| ==> lb <= Insert(t, x)[k].mtime
  {
    if |t| > 0 && t[0].mtime <= x.mtime {
      var tail := t[1..];
      assert forall k :: 0 <= k < |tail| ==> tail[k] == t[k + 1];
      InsertLowerBound(tail, x, lb);
      var r := [t[0]] + Insert(tail, x);
      assert forall k :: 1 <= k < |r| ==> r[k] == Insert(tail, x)[k - 1];
    }
  }

  /** `sorted(runs, key=mtime)`: a stable sort by modification time. */
  function SortByMtime(s: seq<Run>): (r: seq<Run>)
    ensures |r| == |s|
    ensures SortedByMtime(r)
  {
    if |s| == 0 then []
    else
      var init := SortByMtime(s[..|s| - 1]);
      assert s == s[..|s| - 1] + [s[|s| - 1]];
      InsertSorted(init, s[|s| - 1]);
      Insert(init, s[|s| - 1])
  }

  /** Inserting `x` into a sorted list appends it to the elements with its own time. */
  lemma {:induction false} InsertStable(t: seq<Run>, x: Run, m: int)
    requires SortedByMtime(t)
    ensures Filter(Insert(t, x), HasMtime(m)) == Filter(t, HasMtime(m)) + (if x.mtime == m then [x] else [])
    decreases |t|, 1
  {
    var keep := HasMtime(m);
    assert keep(x) == (x.mtime == m);
    if |t| == 0 {
      FilterCons(x, [], keep);
      assert [x] + [] == [x] && [] + [x] == [x];
    } else if t[0].mtime > x.mtime {
      assert Insert(t, x) == [x] + t;
      FilterCons(x, t, keep);
      if x.mtime == m {
        NoneWithMtime(t, m);
        assert [x] + [] == [x] && [] + [x] == [x];
      } else {
        assert [] + Filter(t, keep) == Filter(t, keep) + [];
      }
    } else {
      InsertStableStep(t, x, m);
    }
  }

  lemma {:induction false} InsertStableStep(t: seq<Run>, x: Run, m: int)
    requires SortedByMtime(t) && |t| > 0 && t[0].mtime <= x.mtime
    ensures Filter(Insert(t, x), HasMtime(m)) == Filter(t, HasMtime(m)) + (if x.mtime == m then [x] else [])
    decreases |t|, 0
  {
    var keep := HasMtime(m);
    var tail := t[1..];
    assert SortedByMtime(tail);
    var it := Insert(tail, x);
    assert Insert(t, x) == [t[0]] + it;
    assert t == [t[0]] + tail;
    InsertStable(tail, x, m);
    FilterConsBoth(t[0], it, tail, keep, if x.mtime == m then [x] else []);
  }

  /** In a sorted list starting after time `m`, nothing has time `m`. */
  lemma {:induction false} NoneWithMtime(t: seq<Run>, m: int)
    requires SortedByMtime(t) && |t| > 0 && t[0].mtime > m
    ensures Filter(t, HasMtime(m)) == []
  {
    FilterCons(t[0], t[1..], HasMtime(m));
    assert t == [t[0]] + t[1..];
    if |t| > 1 {
      assert SortedByMtime(t[1..]);
      NoneWithMtime(t[1..], m);
    }
  }

  /** Inserting adds exactly `x`. */
  lemma {:induction false} InsertPermutes(t: seq<Run>, x: Run)
    ensures multiset(Insert(t, x)) == multiset(t) + multiset{x}
  {
    if |t| > 0 && t[0].mtime <= x.mtime {
      InsertPermutes(t[1..], x);
      assert t == [t[0]] + t[1..];
    }
  }

  /** The sort is a permutation of its input. */
  lemma {:induction false} SortPermutes(s: seq<Run>)
    ensures multiset(SortByMtime(s)) == multiset(s)
  {
    if |s| > 0 {
      var init := s[..|s| - 1];
      var x := s[|s| - 1];
      assert s == init + [x];
      assert multiset(s) == multiset(init) + multiset{x};
      SortPermutes(init);
      SortSnoc(s);
      InsertPermutes(SortByMtime(init), x);
    }
  }

  /** The sort is stable: the runs sharing one time keep their original order. */
  lemma {:induction false} SortStable(s: seq<Run>, m: int)
    ensures Filter(SortByMtime(s), HasMtime(m)) == Filter(s, HasMtime(m))
  {
    if |s| > 0 {
      var keep := HasMtime(m);
      var init := s[..|s| - 1];
      var x := s[|s| - 1];
      var last: seq<Run> := if x.mtime == m then [x] else [];
      assert keep(x) == (x.mtime == m);
      assert s == init + [x];
      FilterSnoc(init, x, keep);
      assert Filter(s, keep) == Filter(init, keep) + last;
      var sorted := SortByMtime(init);
      SortSnoc(s);
      InsertStable(sorted, x, m);
      assert Filter(SortByMtime(s), keep) == Filter(sorted, keep) + last;
      SortStable(init, m);
    }
  }

  /** The sort inserts the last element into the sorted rest. */
  lemma SortSnoc(s: seq<Run>)
    requires |s| > 0
    ensures SortByMtime(s) == Insert(SortByMtime(s[..|s| - 1]), s[|s| - 1])
  {
  }

  /** `rs[k]` has the latest time, and every run listed after it is strictly
      earlier: the element a stable sort puts last. */
  ghost predicate IsLatestAt(rs: seq<Run>, k: int)
  {
    && 0 <= k < |rs|
    && (forall j :: 0 <= j < |rs| ==> rs[j].mtime <= rs[k].mtime)
    && (forall j :: k < j < |rs| ==> rs[j].mtime < rs[k].mtime)
  }

  /** At most one position is the latest. */
  lemma LatestIsUnique(rs: seq<Run>, k1: int, k2: int)
    requires IsLatestAt(rs, k1) && IsLatestAt(rs, k2)
    ensures k1 == k2
  {
    assert rs[k1].mtime == rs[k2].mtime;
  }

  /** No element of `t` is later than its last one. */
  ghost predicate LastIsLatest(t: seq<Run>)
    requires |t| > 0
  {
    forall i :: 0 <= i < |t| ==> t[i].mtime <= t[|t| - 1].mtime
  }

  /** Inserting into a list whose last element is the latest keeps that element
      last unless `x` is not earlier. */
  lemma {:induction false} InsertLast(t: seq<Run>, x: Run)
    requires |t| > 0 && LastIsLatest(t)
    ensures var r := Insert(t, x);
      r[|r| - 1] == if x.mtime >= t[|t| - 1].mtime then x else t[|t| - 1]
  {
    var last := t[|t| - 1];
    if t[0].mtime > x.mtime {
      assert t[0].mtime <= last.mtime;
      AppendIndex([x], t, |t| - 1);
    } else if |t| == 1 {
      assert Insert(t, x) == [t[0], x];
    } else {
      var tail := t[1..];
      assert tail[|tail| - 1] == last;
      assert LastIsLatest(tail) by {
        forall i | 0 <= i < |tail| ensures tail[i].mtime <= last.mtime {
          assert tail[i] == t[i + 1];
        }
      }
      InsertLast(tail, x);
      var it := Insert(tail, x);
      AppendIndex([t[0]], it, |it| - 1);
    }
  }

  /** The stable sort's last element is the latest run. */
  lemma LastOfSortIsLatest(s: seq<Run>) returns (k: nat)
    requires |s| > 0
    ensures IsLatestAt(s, k) && SortByMtime(s)[|s| - 1] == s[k]
  {
    k := LatestIndex(s);
    LatestIndexIsLatest(s);
    SortLastIsLatestIndex(s);
  }

  /** The position a left-to-right scan keeps as the latest, moving on a tie. */
  ghost function LatestIndex(s: seq<Run>): (k: nat)
    requires |s| > 0
    ensures k < |s|
  {
    if |s| == 1 then 0
    else
      var k' := LatestIndex(s[..|s| - 1]);
      if s[|s| - 1].mtime >= s[k'].mtime then |s| - 1 else k'
  }

  lemma {:induction false} LatestIndexIsLatest(s: seq<Run>)
    requires |s| > 0
    ensures IsLatestAt(s, LatestIndex(s))
  {
    if |s| > 1 {
      var k' := LatestIndex(s[..|s| - 1]);
      LatestIndexIsLatest(s[..|s| - 1]);
      if s[|s| - 1].mtime >= s[k'].mtime {
        LatestAtEnd(s, k');
      } else {
        LatestKept(s, k');
      }
    }
  }

  lemma {:induction false} SortLastIsLatestIndex(s: seq<Run>)
    requires |s| > 0
    ensures SortByMtime(s)[|s| - 1] == s[LatestIndex(s)]
  {
    if |s| == 1 {
      SortSnoc(s);
    } else {
      var init := s[..|s| - 1];
      SortLastIsLatestIndex(init);
      SortLastStep(s);
      assert init[LatestIndex(init)] == s[LatestIndex(init)];
    }
  }

  /** The sort's last element is the new element or the previous last one,
      whichever is later, the new one on a tie. */
  lemma SortLastStep(s: seq<Run>)
    requires |s| > 1
    ensures var before := SortByMtime(s[..|s| - 1])[|s| - 2];
      SortByMtime(s)[|s| - 1] == if s[|s| - 1].mtime >= before.mtime then s[|s| - 1] else before
  {
    var sorted := SortByMtime(s[..|s| - 1]);
    SortSnoc(s);
    assert LastIsLatest(sorted);
    InsertLast(sorted, s[|s| - 1]);
  }

  lemma LatestAtEnd(s: seq<Run>, k': nat)
    requires |s| > 1 && IsLatestAt(s[..|s| - 1], k') && s[|s| - 1].mtime >= s[k'].mtime
    ensures IsLatestAt(s, |s| - 1)
  {
    assert forall j :: 0 <= j < |s| - 1 ==> s[j] == s[..|s| - 1][j];
  }

  lemma LatestKept(s: seq<Run>, k': nat)
    requires |s| > 1 && IsLatestAt(s[..|s| - 1], k') && s[|s| - 1].mtime < s[k'].mtime
    ensures IsLatestAt(s, k')
  {
    assert forall j :: 0 <= j < |s| - 1 ==> s[j] == s[..|s| - 1][j];
  }

  lemma LatestExists(s: seq<Run>)
    requires |s| > 0
    ensures exists k :: IsLatestAt(s, k) && SortByMtime(s)[|s| - 1] == s[k]
  {
    var k := LastOfSortIsLatest(s);
  }

  /** `get_latest_exp_folder`: the last path after a stable sort by time, or
      None when nothing matched. */
  function GetLatestExpFolder(runs: seq<Run>): (r: Option<string>)
    ensures r.None? <==> |runs| == 0
    ensures r.Some? ==> exists k :: IsLatestAt(runs, k) && runs[k].path == r.value
  {
    var sorted := SortByMtime(runs);
    if |sorted| == 0 then None
    else
      LatestExists(runs);
      Some(sorted[|sorted| - 1].path)
  }

  /** The matches of `yolov5/runs/detect/exp*` in scan order, with their times. */
  function RunCandidates(fs: FileSystem): (r: seq<Run>)
    ensures forall i :: 0 <= i < |r| ==>
      && Exists(fs, r[i].path)
      && InDirWithPrefix(r[i].path, RunRoot, RunPrefix)
      && r[i].mtime == fs.nodes[r[i].path].mtime
    ensures |r| == |Glob(fs, RunRoot, RunPrefix)|
    ensures forall i :: 0 <= i < |r| ==> r[i].path == Glob(fs, RunRoot, RunPrefix)[i]
  {
    var g := Glob(fs, RunRoot, RunPrefix);
    assert forall i :: 0 <= i < |g| ==> g[i] in g;
    seq(|g|, i requires 0 <= i < |g| => Run(g[i], fs.nodes[g[i]].mtime))
  }

  /** The run directory `run_detection_logic` resolves against. */
  function LatestRun(fs: FileSystem): (r: Option<string>)
    ensures r.None? <==> forall p :: p in fs.listing && Exists(fs, p) ==> !InDirWithPrefix(p, RunRoot, RunPrefix)
    ensures r.Some? ==> Exists(fs, r.value) && InDirWithPrefix(r.value, RunRoot, RunPrefix)
    ensures r.Some? ==> forall p :: p in fs.listing && Exists(fs, p) && InDirWithPrefix(p, RunRoot, RunPrefix) ==>
      fs.nodes[p].mtime <= fs.nodes[r.value].mtime
    ensures Valid(fs) ==> LatestIsLastAmongTies(fs, r)
  {
    ChosenRun(fs);
    assert Valid(fs) ==> LatestIsLastAmongTies(fs, GetLatestExpFolder(RunCandidates(fs))) by {
      if Valid(fs) {
        LastAmongTies(fs);
      }
    }
    GetLatestExpFolder(RunCandidates(fs))
  }

  /** The latest of the candidates is a match, and no match is newer. */
  lemma ChosenRun(fs: FileSystem)
    ensures var r := GetLatestExpFolder(RunCandidates(fs));
      && (r.None? <==> forall p :: p in fs.listing && Exists(fs, p) ==> !InDirWithPrefix(p, RunRoot, RunPrefix))
      && (r.Some? ==> Exists(fs, r.value) && InDirWithPrefix(r.value, RunRoot, RunPrefix))
      && (r.Some? ==> forall p :: p in fs.listing && Exists(fs, p) && InDirWithPrefix(p, RunRoot, RunPrefix) ==>
            fs.nodes[p].mtime <= fs.nodes[r.value].mtime)
  {
    var runs := RunCandidates(fs);
    var r := GetLatestExpFolder(runs);
    var g := Glob(fs, RunRoot, RunPrefix);
    if r.Some? {
      var k :| IsLatestAt(runs, k) && runs[k].path == r.value;
      ChosenIsNewest(fs, runs, k);
    } else {
      assert |g| == 0;
    }
  }

  lemma ChosenIsNewest(fs: FileSystem, runs: seq<Run>, k: int)
    requires runs == RunCandidates(fs) && IsLatestAt(runs, k)
    ensures Exists(fs, runs[k].path) && InDirWithPrefix(runs[k].path, RunRoot, RunPrefix)
    ensures forall p :: p in fs.listing && Exists(fs, p) && InDirWithPrefix(p, RunRoot, RunPrefix) ==>
      fs.nodes[p].mtime <= fs.nodes[runs[k].path].mtime
  {
    var g := Glob(fs, RunRoot, RunPrefix);
    assert g[k] in g;
    forall p | p in fs.listing && Exists(fs, p) && InDirWithPrefix(p, RunRoot, RunPrefix)
      ensures fs.nodes[p].mtime <= fs.nodes[runs[k].path].mtime
    {
      assert p in g;
      var i :| 0 <= i < |g| && g[i] == p;
      assert runs[i].path == p && runs[i].mtime <= runs[k].mtime;
    }
  }

  /** Every match the scan lists after the chosen run is strictly older, so
      among runs sharing the greatest time the chosen one is the last listed. */
  ghost predicate LatestIsLastAmongTies(fs: FileSystem, r: Option<string>)
  {
    r.Some? && r.value in fs.nodes ==>
      forall p :: p in fs.listing && Exists(fs, p) && InDirWithPrefix(p, RunRoot, RunPrefix) ==>
        Before(fs.listing, r.value, p) ==> fs.nodes[p].mtime < fs.nodes[r.value].mtime
  }

  lemma LastAmongTies(fs: FileSystem)
    requires Valid(fs)
    ensures LatestIsLastAmongTies(fs, GetLatestExpFolder(RunCandidates(fs)))
  {
    var runs := RunCandidates(fs);
    var r := GetLatestExpFolder(runs);
    if r.Some? {
      var k :| IsLatestAt(runs, k) && runs[k].path == r.value;
      forall p | p in fs.listing && Exists(fs, p) && InDirWithPrefix(p, RunRoot, RunPrefix) && Before(fs.listing, r.value, p)
        ensures fs.nodes[p].mtime < fs.nodes[r.value].mtime
      {
        LaterMatchIsOlder(fs, runs, k, p);
      }
    }
  }

  /** Among runs sharing the greatest time, the one chosen is the last in scan
      order: every match the scan lists after it is strictly older. */
  lemma LaterMatchIsOlder(fs: FileSystem, runs: seq<Run>, k: int, p: string)
    requires Valid(fs) && runs == RunCandidates(fs) && IsLatestAt(runs, k)
    requires p in fs.listing && Exists(fs, p) && InDirWithPrefix(p, RunRoot, RunPrefix)
    requires Before(fs.listing, runs[k].path, p)
    ensures fs.nodes[p].mtime < fs.nodes[runs[k].path].mtime
  {
    var g := Glob(fs, RunRoot, RunPrefix);
    assert p in g;
    var j :| 0 <= j < |g| && g[j] == p;
    BeforeAsymmetric(fs.listing, runs[k].path, p);
    assert runs[j].path == p;
  }

  /** The latest position decides the answer: `get_latest_exp_folder` returns
      the path at the one position that is latest. */
  lemma LatestDetermines(runs: seq<Run>, k: int)
    requires IsLatestAt(runs, k)
    ensures GetLatestExpFolder(runs) == Some(runs[k].path)
  {
    var r := GetLatestExpFolder(runs);
    var k' :| IsLatestAt(runs, k') && runs[k'].path == r.value;
    LatestIsUnique(runs, k, k');
  }

  /** A run newer than every other match is the one chosen, whatever the scan
      order: after a run has been added with a later time, resolution picks it
      and not an earlier run. */
  lemma NewestRunChosen(fs: FileSystem, p: string)
    requires p in fs.listing && Exists(fs, p) && InDirWithPrefix(p, RunRoot, RunPrefix)
    requires forall q :: q in fs.listing && Exists(fs, q) && InDirWithPrefix(q, RunRoot, RunPrefix) && q != p ==>
      fs.nodes[q].mtime < fs.nodes[p].mtime
    ensures LatestRun(fs) == Some(p)
  {
  }
}
